=== FILE: README.md ===
# Ticket lifecycle, SLA enforcement and tag-based access — a Dafny model

This project models the logic at the heart of a support-ticketing backend.
Everything else in the system is persistence plumbing. The model covers:

- **SLA due dates.** A table of SLA policies, unique by priority, gives each
  priority a response budget and a resolution budget in whole hours. A new
  ticket, and a ticket whose priority changes, gets due dates `now + budget`.
- **Ticket lifecycle.** Creation, update (a priority change recomputes both
  due dates) and the overdue sweep. The sweep closes every ticket not yet
  closed (open, in progress or resolved) whose *response* deadline has
  strictly passed.
- **Access.** An agent's effective tags are the union of the tags of the
  agent's groups. Customers see their own tickets, and agents see tickets
  that share a tag with them. Creation, single-ticket fetch, update and
  response creation are each modelled twice: the controller check alone,
  and that check composed with the route's role gate. Listing has no gate
  beyond authentication, and for download only the gate is modelled.
- **Administration and reporting.** The filtered admin ticket report and its
  statistics, set-replacing group edits, tag and SLA policy edits, and the
  admin, customer and agent dashboards.
- **Accounts.** The role check at registration, uniform login failure, and
  the profile-edit allow-list.

Time is integer milliseconds. Ids are integers. Many-to-many associations
(ticket tags, group tags, group members) are sets of ids. A table is a
sequence of rows in the order the store returns them. HTTP outcomes collapse
into `Outcomes.Result`:

- `Ok`
- `Unauthenticated` (401)
- `Denied` (403)
- `NotFound` (404)
- `Invalid(reason)` (400)

A handler that writes returns `Stored(rows, outcome)`. The source sometimes
fails after a write has already happened, so the model records both the
table after the call and the outcome.

Modules follow the source layout:

- `Entities`: the records and enums (`models/`), and the seeded admin account.
- `Sla`: the policy table, `calculateDueDates` and the seeded policies.
- `Monitor`: the sweep in `jobs/ticketMonitor.js`.
- `Tally`: ticket counts by status, shared by the admin report and the dashboards.
- `Access`: effective tags and tag matching.
- `TicketRoutes`: the role gates in `routes/ticketRoutes.js`.
- `Tickets`, `Admin`, `Dashboard` and `Accounts`: one per controller.
- `Outcomes`, `Seqs` and `Recency`: shared helpers. `Recency` does the
  newest-first ordering and top-N lists.

Some behaviour of the code is easy to miss:

- The sweep. One handler encloses the query and the whole loop
  (src/jobs/ticketMonitor.js:5-20), so the first failing write ends the pass
  and later overdue tickets stay open until the next pass. `Monitor.Sweep`
  models this.
- Access rules differ per endpoint (src/controllers/ticketController.js):
  - fetch checks ownership for customers and shared tags for agents (96-115);
  - update has no check beyond the route gate (123-148);
  - response creation checks ownership for customers and the assigned agent,
    not tags, for agents (159-165);
  - the download route (src/routes/ticketRoutes.js:38-41) names a handler the
    controller does not export (179-184).
- The server as written does not start. The ticket routes call
  `ticketController.upload.array(...)` (src/routes/ticketRoutes.js:12 and
  33), but the controller exports no `upload` (src/controllers/ticketController.js:179-184).
  Loading the route module (src/index.js:8) therefore throws a TypeError.
  That happens before the monitor job is loaded (src/index.js:31) and before
  the server listens. Every `*Endpoint` member, and `Monitor.Sweep` as a
  recurring job, models the program as intended, with the routes mounted.
- Customer branches. The route gate admits only agents and admins to
  single-ticket fetch and to response creation (src/routes/ticketRoutes.js:21-35).
  So the controllers' customer branches can never run
  (`Tickets.GetTicketEndpoint`, `Tickets.AddResponseEndpoint`).
- Policy budgets. The schema only requires integers
  (src/models/SLAPolicy.js:15-22), so the model allows any integer, zero and
  negative included.
- Group members. `setUsers` accepts any existing user id
  (src/controllers/adminController.js:53-55, 102-104), whatever the user's role.

## Model

| member | source | states |
|---|---|---|
| Entities.ParseStatus | src/models/Ticket.js:18-21 | a status text is accepted exactly when it is the literal of one of the four statuses open, in_progress, resolved and closed |
| Entities.ParsePriority | src/models/Ticket.js:22-25 | a priority text is accepted exactly when it is the literal of one of low, medium, high and critical |
| Entities.ParseRole | src/controllers/userController.js:14 | a role text is accepted exactly when it is admin, agent or customer |
| Entities.SeedAdminIsAdmin | init-db.js:12-17 | the seeded initial user has role admin |
| Sla.FindPolicy | src/models/Ticket.js:55 | the lookup finds nothing exactly when no row carries the priority; a found row is in the table and carries that priority |
| Sla.LookupIsUnique | src/models/SLAPolicy.js:10-14 | under the unique constraint on priority, lookup by priority is a partial function: it returns the one row with that priority |
| Sla.CalculateDueDates | src/models/Ticket.js:53-69 | fails with "policy missing" exactly when no row has the priority; otherwise the due dates are now + responseTime·3,600,000 and now + resolutionTime·3,600,000, from the same now |
| Sla.DueDateOrder | src/models/Ticket.js:61-63 | the resolution deadline is no earlier than the response deadline exactly when the policy's resolution budget is no smaller |
| Sla.SeedTableIsComplete | init-db.js:29-34 | the seeded table is unique by priority; each of the four priorities has a policy with the seeded budgets, so due-date calculation never fails for a valid priority |
| Sla.SeedBudgetsAreOrdered | init-db.js:30-33 | every seeded row has resolution budget > response budget > 0, and response budgets strictly decrease from low to critical |
| Monitor.Sweep | src/jobs/ticketMonitor.js:4-21 | each ticket is either untouched or was overdue and is now closed, with only its timestamp also changed; a ticket whose write fails is never closed; the count never exceeds the table |
| Monitor.Halt | src/jobs/ticketMonitor.js:14-20 | the pass ends at the first overdue ticket whose write fails: every earlier ticket is either not overdue or writable |
| Monitor.SweepStopsAtFirstFailure | src/jobs/ticketMonitor.js:5-20 | every ticket before the first failing write is closed if overdue and otherwise untouched; that ticket and all later ones keep their state, since one handler encloses the whole loop (so closures follow table order) |
| Monitor.SweepWithoutFailures | src/jobs/ticketMonitor.js:7-17 | when no write fails, exactly the selected tickets are closed and the reported count is the size of the selection |
| Monitor.SelectionBoundaries | src/jobs/ticketMonitor.js:7-12 | a deadline equal to now, a null deadline and a closed ticket are never selected; the resolution deadline does not affect selection; a deadline one millisecond in the past is selected |
| Monitor.NothingOverdueIsFixpoint | src/jobs/ticketMonitor.js:8-15 | a pass over a table with nothing overdue changes nothing and closes nothing |
| Monitor.SweepIsIdempotent | src/jobs/ticketMonitor.js:9-15 | after a pass whose writes all succeeded, a second pass at the same now closes nothing new |
| Monitor.OverdueTicketIsClosed | src/jobs/ticketMonitor.js:14-15 | in a pass without failures, an overdue ticket ends closed, with nothing but its status and timestamp changed |
| Access.GroupsOf | src/controllers/ticketController.js:59-61 | the agent's groups are exactly the groups that list the agent as a member |
| Access.UnionOfTags | src/controllers/ticketController.js:63-65 | a tag is in the union exactly when some group in the list covers it |
| Access.EffectiveTags | src/controllers/dashboardController.js:103-105 | a tag is effective for an agent exactly when some group the agent belongs to covers it (a de-duplicated union) |
| Access.NoGroupsNoTags | src/controllers/dashboardController.js:90 | an agent in no group has no effective tags |
| Access.MatchingIsOverlap | src/controllers/ticketController.js:109-110 | the controllers' "some ticket tag is an agent tag" test is non-empty intersection; a tagless ticket matches no agent |
| TicketRoutes.Gate | src/routes/ticketRoutes.js:7 | an unauthenticated caller is refused with 401; an authenticated one passes exactly when the route admits its role, and is refused with 403 otherwise |
| TicketRoutes.RouteTable | src/routes/ticketRoutes.js:10-41 | only customers create tickets; only agents and admins fetch, update or respond to a single ticket; every role lists tickets and reaches attachment download |
| Tickets.CreateTicket | src/controllers/ticketController.js:19-47 | a row is stored exactly when the priority has a policy and title and description are present; it is open, owned by the caller, unassigned, with the calculated due dates; tags are attached only for a non-empty list of known ids, and an unknown id fails the request but leaves the untagged ticket |
| Tickets.CreateTicketEndpoint | src/routes/ticketRoutes.js:10-14 | an unauthenticated caller gets 401 (authentication applies to every route, line 7) and any non-customer 403, with nothing stored; an authenticated customer gets exactly the controller's rows and outcome; so creation succeeds exactly when the caller is a customer, the priority has a policy, title and description are present and any tags sent are known, and the created ticket belongs to the caller |
| Tickets.ListTickets | src/controllers/ticketController.js:49-83 | an admin gets every ticket; a customer gets exactly its own tickets; an agent gets exactly the tickets that share a tag with a group the agent belongs to; no row is listed more often than the table holds it |
| Tickets.GetTicket | src/controllers/ticketController.js:85-121 | not found exactly when no ticket has the id; an admin gets the ticket, a customer only if owner, an agent only if the ticket's tags meet the agent's effective tags |
| Tickets.GetTicketEndpoint | src/routes/ticketRoutes.js:21-24 | an unauthenticated caller gets 401 (authentication applies to every route, line 7) and a customer 403; an agent or admin gets exactly the controller's result; so effective fetch access is an authenticated agent with a shared tag, or an admin, on an existing ticket |
| Tickets.UpdateTicket | src/controllers/ticketController.js:123-148 | only the ticket with that id changes, and the stored row is the one returned; the save succeeds exactly when the status and priority literals are known, a changed priority has a policy, and a changed customer or agent id names an existing user; each failure is rejected with the table unchanged (missing policy, unknown literal, unknown user) |
| Tickets.UpdateWritesThePatch | src/controllers/ticketController.js:134-142 | a successful update keeps id, tags and creation time; takes title, description, customer and agent from the patch when sent; sets the status and priority sent; recomputes both due dates from the update time when the priority changes and otherwise takes any sent due dates; and stamps the update time only if the row changed |
| Tickets.UpdateTicketEndpoint | src/routes/ticketRoutes.js:26-29 | an unauthenticated caller gets 401 (authentication applies to every route, line 7) with nothing written; an agent or admin gets exactly the controller's rows and outcome; so the update succeeds exactly when the caller is an agent or admin, the ticket exists and the save accepts the patch (known literals, a policy for a changed priority, existing users for changed ids), and no tag check applies |
| Tickets.AddResponse | src/controllers/ticketController.js:150-177 | not found exactly when no ticket has the id; an admin may respond, a customer only as owner, an agent only as the ticket's assigned agent; the response records content, ticket and author |
| Tickets.AddResponseEndpoint | src/routes/ticketRoutes.js:31-35 | an unauthenticated caller gets 401 (authentication applies to every route, line 7) and a customer 403; an agent or admin gets exactly the controller's result, the response recording content, ticket and author; so effective response access is an admin, or the ticket's assigned agent, on an existing ticket |
| Tickets.StatusMayRegress | src/controllers/ticketController.js:140-141 | an update may set any existing ticket, resolved or closed included, back to open |
| Tickets.PriorityChangeRecomputesFromUpdateTime | src/controllers/ticketController.js:134-138 | with the seeded table, a critical ticket created at t0 is due at t0+1h and t0+8h; changing it to low at t1 makes it due at t1+24h and t1+72h |
| Tickets.UpdateSkipsTagCheck | src/controllers/ticketController.js:123-148 | an agent whose groups share no tag with a ticket is refused the ticket yet can update it |
| Tickets.ResponsesFollowAssignment | src/controllers/ticketController.js:159-165 | the assigned agent may respond without sharing a tag; an unassigned agent who shares a tag may not |
| Admin.WhereMeansQuery | src/controllers/adminController.js:162-173 | the where-clause built from the query accepts a ticket exactly when it meets every supplied filter; the date range applies only with both ends and is inclusive |
| Tally.StatusPartition | src/controllers/adminController.js:210-215 | the four status counts add up to the number of tickets |
| Admin.Statistics | src/controllers/adminController.js:210-215 | total is the table size and open, resolved and closed are the numbers of tickets in those statuses; open + resolved + closed ≤ total, with equality exactly when nothing is in progress |
| Admin.GetAllTickets | src/controllers/adminController.js:157-230 | the listed tickets are exactly the table's tickets that meet every supplied filter, newest first, and the statistics cover the whole table regardless of the filters |
| Admin.ReportIgnoresTagsAndHalfRanges | src/controllers/adminController.js:159-171 | the tags parameter changes nothing, and a date range missing either end filters nothing |
| Admin.CreateGroup | src/controllers/adminController.js:43-68 | the group row is always stored; the request succeeds exactly when every supplied id exists; the tag and member sets are the sets of the sent lists, empty when a list is empty or absent; an unknown tag id leaves both sets empty, and an unknown member id after good tags leaves the tags attached and no members |
| Admin.UpdateGroup | src/controllers/adminController.js:84-117 | not found exactly when no group has the id; with known ids a sent list, even an empty one, replaces its set, and an absent list leaves it unchanged; an unknown tag id leaves the old tags cut down to the listed ones and the members untouched, and an unknown member id after good tags leaves the old members cut down to the listed ones; nothing else in the row or table changes |
| Admin.UpdateTag | src/controllers/adminController.js:24-40 | not found exactly when no tag has the id; otherwise exactly the sent keys are overwritten in that one row |
| Admin.UpdateSlaPolicy | src/controllers/adminController.js:138-154 | not found exactly when no policy has the id; otherwise the save succeeds exactly when the resulting priority is a valid literal that no other policy holds, an unknown literal is rejected as invalid and a held one as taken, and a successful save overwrites exactly the sent keys, so the one-policy-per-priority invariant is preserved |
| Admin.RolePartition | src/controllers/adminController.js:267-269 | the admin, agent and customer counts add up to the number of users |
| Admin.CountUsers | src/controllers/adminController.js:267-269 | total is the number of users, agents and customers are the numbers of users with those roles, and agents + customers = total exactly when there is no admin |
| Admin.GetAdminDashboard | src/controllers/adminController.js:233-307 | the recent list holds min(10, n) tickets of the table, newest first, and no ticket left out is newer than one listed; the ticket counts by status, the user counts by role and the group count are those of the tables |
| Recency.SortByRecency | src/controllers/adminController.js:206 | the result is ordered by creation time, newest first, and is as long as the input |
| Recency.SortIsPermutation | src/controllers/adminController.js:206 | ordering keeps exactly the given tickets, each as often as it occurs |
| Recency.Newest | src/controllers/dashboardController.js:45-47 | the list holds min(n, size) tickets, newest first |
| Recency.NewestAreDrawnFromInput | src/controllers/dashboardController.js:45-47 | every listed ticket is one of the input's, and none is listed more often than it occurs |
| Recency.NewestDominates | src/controllers/dashboardController.js:45-47 | no ticket left out of the list is newer than a ticket in it |
| Dashboard.RoundHalfUpIsNearest | src/controllers/dashboardController.js:18 | the rounded value is the integer nearest to n/d, with halves rounded up |
| Dashboard.AverageResolutionTime | src/controllers/dashboardController.js:5-19 | zero when there are no tickets or none is resolved (closed tickets do not count) |
| Dashboard.AverageIsRoundedMean | src/controllers/dashboardController.js:11-18 | with some ticket resolved, the average is the mean creation-to-update time of the resolved tickets, in hours, rounded half up |
| Tally.OpenAndResolvedFit | src/controllers/dashboardController.js:39-41 | open tickets plus resolved tickets never exceed the tickets counted |
| Dashboard.Summarize | src/controllers/dashboardController.js:38-47 | pending counts only open tickets and resolved only resolved ones, their sum stays within the count, the average is the average resolution time of these tickets, and the recent list is the five newest of these tickets, each drawn from them |
| Dashboard.CustomerDashboard | src/controllers/dashboardController.js:22-70 | the dashboard is the summary of exactly the caller's own tickets, and is empty when the caller owns none |
| Dashboard.OwnedExactly | src/controllers/dashboardController.js:26-27 | a ticket is selected for a customer exactly when it is in the table and the customer owns it |
| Dashboard.AgentTicketsExactly | src/controllers/dashboardController.js:103-118 | a ticket is counted for an agent exactly when it is in the table and carries a tag covered by one of the agent's groups |
| Dashboard.AgentDashboard | src/controllers/dashboardController.js:73-165 | the dashboard is the summary of exactly the tickets reached through the agent's groups; an agent in no group gets all-zero stats and no recent tickets, which agrees with that summary |
| Dashboard.NoGroupsSummaryIsEmpty | src/controllers/dashboardController.js:90-100 | for an agent in no group, the general path would also give zeros and an empty list, so the early return agrees with it |
| Accounts.Register | src/controllers/userController.js:9-30 | fails exactly when a non-empty role outside admin, agent and customer is given; an absent role makes a customer; otherwise the user gets the requested role |
| Accounts.AnyRoleSelfSelectable | src/controllers/userController.js:14-22 | any of the three roles, admin included, can be chosen at registration |
| Accounts.Login | src/controllers/userController.js:32-46 | succeeds exactly when the first user with the email passes the password check; every failure, unknown email or wrong password, is the same error |
| Accounts.UpdateProfile | src/controllers/userController.js:52-68 | accepted exactly when every key is username, email or password; an accepted edit assigns exactly the sent keys and never touches id or role; an empty body changes nothing |
| Accounts.RoleCannotBeEdited | src/controllers/userController.js:53-59 | a profile edit that names the role is refused as a whole |

## Left out

- Server wiring, database connection and sync, process exits and logging: I/O with nothing to verify.
- The recurring timer that runs the sweep every minute, and the extra one-off sweep scheduled after each ticket creation. Both only schedule the pass; the pass is `Monitor.Sweep` at an explicit `now`.
- The copy of the sweep inside the ticket controller (src/controllers/ticketController.js:5-17). It selects and writes like the job, so `Monitor.Sweep` models it too. It differs in that a failure escapes as an unhandled rejection instead of being logged. That changes no data, but from Node 15 on an unhandled rejection ends the process by default, so a failing write in this copy can take the server down. The model has no process lifetime.
- The sweep's failing query, which leaves everything unchanged. The model has no query failures; its write failures are the `failing` set of ticket ids.
- Concurrency between the sweep and request handlers (last write wins).
- Token signing, password hashing and the stored-password check. `Accounts.Login` takes the check as a parameter.
- Floating point in the average resolution time. `Dashboard.AverageResolutionTime` computes the exact rational value and rounds it. The source's float division can differ from it by rounding error.
- The extent of JavaScript dates: due dates and timestamps are unbounded integers.
- Attachments: the attachment schema, multipart upload and the download handler. The ticket routes refer to `upload` and `downloadFile`, which the controller does not export. Only the download route's role gate is modelled. As written, the missing `upload` makes loading the ticket routes throw, so the server never starts and the monitor job is never loaded. The endpoints and the sweep are modelled as the program would run with the routes mounted.
- Response bodies, included associations and projections. One example: an agent's listing returns only the matching tags of each ticket.
- Association resolution. Three includes name associations that are not declared as written:
  - the agent listing's include omits its alias;
  - the agent dashboard uses an undeclared alias;
  - the single-ticket fetch includes `'responses'` (src/controllers/ticketController.js:88), but responses are declared without an alias (src/models/index.js:21), so under the library's default name. That lookup would fail before the 404 and role checks, and every fetch would end in the 500 branch.
  The model gives the listing and the dashboard the intended set semantics.
- Tickets.GetTicket: models the intended 404 and role checks of src/controllers/ticketController.js:91-115, not the failing `'responses'` include that comes before them. `Tickets.GetTicketEndpoint` inherits this.
- Pass-through handlers with no logic: `createTag`, `getTags`, `getGroups`, `createSLAPolicy`, `getSLAPolicies` and `getProfile`.
- The blanket role gates of the admin, dashboard and user routes (admin-only; customer-only and agent-only dashboards).
- Tickets.UpdateTicket: body keys outside the eight editable columns are not modelled. That covers unknown keys and also `id`, `createdAt` and `updatedAt`. The handler assigns them as well (src/controllers/ticketController.js:140-142), and what the save then does with them is decided by the library, not by this repository. The model keeps a ticket's id and creation time as they were and stamps `updatedAt` itself.
- Tickets.UpdateTicket: an explicit `null` status is not modelled. The status column has a default but no `allowNull: false` (src/models/Ticket.js:18-21), so the store accepts it. Such a ticket would never be selected by the sweep, and it would be missing from all four status counts. `TicketPatch.status` is a text, never null. Explicit `null` for the other non-nullable columns, which the save rejects, is not modelled either. `Some(None)` is an explicit null only for the nullable due dates and agent.
- One clock reading per call. Each operation takes a single `now`. The source reads the clock again where it saves: the sweep's update stamps `updatedAt` a little after the query's `now`, and an update's save stamps it a little after the due dates were computed. The model treats these instants as one.
- A list of ids with repeats sent to `setTags`/`setUsers` is taken as its set.
- Uniqueness of user emails and the failure of a profile save (the User model is not part of this model).
- Tickets.CreateTicket: an absent priority is the empty text, which like any unknown priority finds no policy. The library's exact complaint about an undefined filter value is not modelled.
- Admin.GetAllTickets: a status or priority filter outside the enum selects no rows. A database that rejects an unknown enum literal with an error is not modelled.

=== FILE: access.dfy ===
/** Tag-based visibility: an agent reaches the tickets that carry a tag
    covered by one of the agent's groups. */
module Access {
  import opened Entities

  /** The groups a user belongs to, in table order. */
  function GroupsOf(groups: seq<Group>, agent: int): (r: seq<Group>)
    ensures |r| <= |groups|
    ensures forall g :: g in r <==> g in groups && agent in g.agents
  {
    if |groups| == 0 then []
    else
      var rest := GroupsOf(groups[1..], agent);
      assert groups == [groups[0]] + groups[1..];
      if agent in groups[0].agents then [groups[0]] + rest else rest
  }

  /** The union of the tag sets of the given groups. */
  function UnionOfTags(groups: seq<Group>): (r: set<int>)
    ensures forall tag :: tag in r <==> exists i :: 0 <= i < |groups| && tag in groups[i].tags
  {
    if |groups| == 0 then {}
    else
      var rest := UnionOfTags(groups[1..]);
      assert forall i :: 1 <= i < |groups| ==> groups[i] == groups[1..][i - 1];
      groups[0].tags + rest
  }

  /** An agent's effective tags: every tag covered by a group the agent is
      a member of. */
  function EffectiveTags(groups: seq<Group>, agent: int): (r: set<int>)
    ensures forall tag :: tag in r <==> exists g :: g in groups && agent in g.agents && tag in g.tags
  {
    var mine := GroupsOf(groups, agent);
    assert forall tag :: tag in UnionOfTags(mine) ==> exists g :: g in groups && agent in g.agents && tag in g.tags by {
      forall tag | tag in UnionOfTags(mine)
        ensures exists g :: g in groups && agent in g.agents && tag in g.tags
      {
        var i :| 0 <= i < |mine| && tag in mine[i].tags;
        assert mine[i] in mine;
      }
    }
    assert forall g, tag :: g in groups && agent in g.agents && tag in g.tags ==> tag in UnionOfTags(mine) by {
      forall g, tag | g in groups && agent in g.agents && tag in g.tags
        ensures tag in UnionOfTags(mine)
      {
        var i :| 0 <= i < |mine| && mine[i] == g;
      }
    }
    UnionOfTags(mine)
  }

  /** An agent in no group has no effective tags. */
  lemma NoGroupsNoTags(groups: seq<Group>, agent: int)
    requires GroupsOf(groups, agent) == []
    ensures EffectiveTags(groups, agent) == {}
  {
    assert forall g :: g in groups ==> agent !in g.agents by {
      forall g | g in groups ensures agent !in g.agents {
        assert g !in GroupsOf(groups, agent);
      }
    }
  }

  /** The controllers' test: some tag of the ticket is among the agent's tags. */
  predicate HasMatchingTag(ticketTags: set<int>, agentTags: set<int>) {
    exists tag :: tag in ticketTags && tag in agentTags
  }

  /** The membership test is non-empty intersection; in particular a ticket
      without tags matches no agent. */
  lemma MatchingIsOverlap(ticketTags: set<int>, agentTags: set<int>)
    ensures HasMatchingTag(ticketTags, agentTags) <==> ticketTags * agentTags != {}
    ensures ticketTags == {} ==> !HasMatchingTag(ticketTags, agentTags)
  {
    var common := ticketTags * agentTags;
    assert forall tag :: tag in ticketTags && tag in agentTags <==> tag in common;
    if forall tag :: tag !in common {
      assert forall tag :: tag in common <==> tag in {};
      assert common == {};
    } else {
      var tag :| tag in common;
      assert tag in ticketTags && tag in agentTags;
    }
  }
}

=== FILE: accounts.dfy ===
/** Registration, login and profile edits. Password hashing and token
    signing are outside the model; password checking is a parameter. */
module Accounts {
  import opened Outcomes
  import opened Entities
  import opened Seqs

  /** A registration body; an absent role is the empty text, which is falsy. */
  datatype Registration = Registration(username: string, email: string, password: string, role: string)

  /** Registers user `id`. A role, when given, must be one of the three;
      none is given, the user is a customer. Nothing stops a caller from
      choosing admin. */
  function Register(req: Registration, id: int): (r: Result<User>)
    ensures r.Err? <==> req.role != "" && req.role != "admin" && req.role != "agent" && req.role != "customer"
    ensures r.Err? ==> r.failure == Invalid(RoleInvalid)
    ensures r.Ok? ==>
      && r.value.id == id && r.value.username == req.username
      && r.value.email == req.email && r.value.password == req.password
      && (req.role == "" ==> r.value.role == Customer)
      && (req.role != "" ==> RoleName(r.value.role) == req.role)
  {
    if req.role != "" && ParseRole(req.role).None? then Err(Invalid(RoleInvalid))
    else Ok(User(id, req.username, req.email, req.password,
                 if req.role == "" then Customer else ParseRole(req.role).value))
  }

  /** Every role, admin included, can be chosen at registration. */
  lemma AnyRoleSelfSelectable(req: Registration, id: int, role: Role)
    ensures Register(req.(role := RoleName(role)), id) == Ok(User(id, req.username, req.email, req.password, role))
  {
  }

  /** Logs in by email. `validPassword` stands for the stored-hash check.
      An unknown email and a wrong password fail identically. */
  function Login(users: seq<User>, email: string, password: string, validPassword: (User, string) -> bool)
    : (r: Result<User>)
    ensures r.Err? ==> r == Err(Invalid(CredentialsInvalid))
    ensures (forall j :: 0 <= j < |users| ==> users[j].email != email) ==> r.Err?
    ensures r.Ok? ==> r.value in users && r.value.email == email && validPassword(r.value, password)
    ensures r.Ok? <==> exists k :: 0 <= k < |users| && users[k].email == email && validPassword(users[k], password)
                                  && forall j :: 0 <= j < k ==> users[j].email != email
  {
    match FirstIndex(users, (u: User) => u.email == email)
    case None => Err(Invalid(CredentialsInvalid))
    case Some(k) =>
      if validPassword(users[k], password) then Ok(users[k]) else Err(Invalid(CredentialsInvalid))
  }

  /** The keys a profile edit may carry. */
  const AllowedUpdates: set<string> := {"username", "email", "password"}

  /** Applies a profile edit, given as the body's keys and values. Any key
      outside the allow-list rejects the whole edit; otherwise exactly the
      supplied keys are assigned. An empty body is accepted. */
  function UpdateProfile(user: User, body: map<string, string>): (r: Result<User>)
    ensures r.Ok? <==> body.Keys <= AllowedUpdates
    ensures r.Err? ==> r.failure == Invalid(UpdatesInvalid)
    ensures r.Ok? ==>
      && r.value.id == user.id && r.value.role == user.role
      && r.value.username == (if "username" in body then body["username"] else user.username)
      && r.value.email == (if "email" in body then body["email"] else user.email)
      && r.value.password == (if "password" in body then body["password"] else user.password)
    ensures body == map[] ==> r == Ok(user)
  {
    if !(body.Keys <= AllowedUpdates) then Err(Invalid(UpdatesInvalid))
    else
      Ok(user.(username := if "username" in body then body["username"] else user.username,
               email := if "email" in body then body["email"] else user.email,
               password := if "password" in body then body["password"] else user.password))
  }

  /** A body that names the role is refused, whatever else it carries. */
  lemma RoleCannotBeEdited(user: User, body: map<string, string>)
    requires "role" in body
    ensures UpdateProfile(user, body) == Err(Invalid(UpdatesInvalid))
  {
    assert "role" !in AllowedUpdates;
  }
}

=== FILE: admin.dfy ===
/** The administrator's handlers: the filtered ticket report with its
    statistics, group membership edits, tag and SLA policy edits, and the
    administrator dashboard. */
module Admin {
  import opened Outcomes
  import opened Entities
  import opened Seqs
  import opened Recency
  import opened Sla
  import opened Tally

  // ---------------------------------------------------------------------
  // Ticket report

  /** The report's query string. Texts are as sent ("" is falsy, as absent);
      ids and dates are taken as already parsed. `tags` is read but unused. */
  datatype TicketQuery = TicketQuery(
    status: Option<string>,
    priority: Option<string>,
    startDate: Option<int>,
    endDate: Option<int>,
    agentId: Option<int>,
    customerId: Option<int>,
    tags: Option<string>)

  predicate Supplied(text: Option<string>) {
    text.Some? && text.value != ""
  }

  /** The where-clause the handler builds: one condition per supplied key. */
  datatype Where = Where(
    status: Option<string>,
    priority: Option<string>,
    createdBetween: Option<(int, int)>,
    agentId: Option<int>,
    customerId: Option<int>)

  function BuildWhere(q: TicketQuery): Where {
    Where(
      if Supplied(q.status) then q.status else None,
      if Supplied(q.priority) then q.priority else None,
      if q.startDate.Some? && q.endDate.Some? then Some((q.startDate.value, q.endDate.value)) else None,
      q.agentId,
      q.customerId)
  }

  /** A row satisfies a where-clause when it meets every condition; the
      creation range is inclusive at both ends. */
  predicate Satisfies(w: Where, t: Ticket) {
    && (w.status.Some? ==> StatusName(t.status) == w.status.value)
    && (w.priority.Some? ==> PriorityName(t.priority) == w.priority.value)
    && (w.createdBetween.Some? ==> w.createdBetween.value.0 <= t.createdAt <= w.createdBetween.value.1)
    && (w.agentId.Some? ==> t.agentId == w.agentId)
    && (w.customerId.Some? ==> t.customerId == w.customerId.value)
  }

  /** What the report promises of each listed ticket: it meets every
      supplied filter. */
  predicate MatchesQuery(q: TicketQuery, t: Ticket) {
    && (Supplied(q.status) ==> StatusName(t.status) == q.status.value)
    && (Supplied(q.priority) ==> PriorityName(t.priority) == q.priority.value)
    && (q.startDate.Some? && q.endDate.Some? ==> q.startDate.value <= t.createdAt <= q.endDate.value)
    && (q.agentId.Some? ==> t.agentId == q.agentId)
    && (q.customerId.Some? ==> t.customerId == q.customerId.value)
  }

  /** The where-clause built from a query selects exactly the matching rows. */
  lemma WhereMeansQuery(q: TicketQuery, t: Ticket)
    ensures Satisfies(BuildWhere(q), t) <==> MatchesQuery(q, t)
  {
  }

  datatype TicketStats = TicketStats(total: nat, open: nat, resolved: nat, closed: nat)

  /** Statistics over the whole table. Each count is the number of tickets
      in that status; in-progress tickets are counted only in the total. */
  function Statistics(tickets: seq<Ticket>): (r: TicketStats)
    ensures r.total == |tickets|
    ensures r.open == StatusCount(tickets, Open)
    ensures r.resolved == StatusCount(tickets, Resolved)
    ensures r.closed == StatusCount(tickets, Closed)
    ensures r.open + r.resolved + r.closed <= r.total
    ensures r.open + r.resolved + r.closed == r.total <==> StatusCount(tickets, InProgress) == 0
  {
    StatusPartition(tickets);
    TicketStats(|tickets|, StatusCount(tickets, Open), StatusCount(tickets, Resolved), StatusCount(tickets, Closed))
  }

  datatype TicketReport = TicketReport(tickets: seq<Ticket>, statistics: TicketStats)

  /** The report: the tickets that meet every supplied filter, newest first,
      with statistics over the whole table that ignore the filters. */
  function GetAllTickets(all: seq<Ticket>, q: TicketQuery): (r: TicketReport)
    ensures NewestFirst(r.tickets)
    ensures multiset(r.tickets) <= multiset(all)
    ensures forall t :: t in r.tickets <==> t in all && MatchesQuery(q, t)
    ensures r.statistics == Statistics(all)
  {
    var w := BuildWhere(q);
    var selected := Filter(all, (t: Ticket) => Satisfies(w, t));
    var sorted := SortByRecency(selected);
    SortIsPermutation(selected);
    FilterIsSubMultiset(all, (t: Ticket) => Satisfies(w, t));
    forall t ensures t in sorted <==> t in all && MatchesQuery(q, t) {
      WhereMeansQuery(q, t);
      assert t in sorted <==> t in multiset(sorted);
      assert t in selected <==> t in multiset(selected);
      assert t in selected <==> t in all && Satisfies(w, t);
    }
    TicketReport(sorted, Statistics(all))
  }

  /** The `tags` key changes nothing; a date range with one end missing
      filters nothing. */
  lemma ReportIgnoresTagsAndHalfRanges(all: seq<Ticket>, q: TicketQuery, tags: Option<string>, date: Option<int>)
    ensures GetAllTickets(all, q.(tags := tags)) == GetAllTickets(all, q)
    ensures GetAllTickets(all, q.(startDate := None, endDate := date))
            == GetAllTickets(all, q.(startDate := None, endDate := None))
    ensures GetAllTickets(all, q.(startDate := date, endDate := None))
            == GetAllTickets(all, q.(startDate := None, endDate := None))
  {
  }

  // ---------------------------------------------------------------------
  // Groups

  /** A create-group body: lists of tag ids and user ids, each optional. */
  datatype GroupRequest = GroupRequest(name: string, description: string, tagIds: Option<seq<int>>, agentIds: Option<seq<int>>)

  predicate NonEmpty(ids: Option<seq<int>>) {
    ids.Some? && |ids.value| > 0
  }

  predicate AllKnown(ids: Option<seq<int>>, known: set<int>) {
    ids.Some? ==> IdSet(ids.value) <= known
  }

  /** Creates group `id`. The row is stored first; tags and then members are
      attached only when their list is non-empty. An unknown id fails the
      request after the row (and any attached tags) already exist. */
  function CreateGroup(groups: seq<Group>, id: int, req: GroupRequest, knownTags: set<int>, knownUsers: set<int>)
    : (r: Stored<Group, Group>)
    ensures |r.rows| == |groups| + 1 && r.rows[..|groups|] == groups
    ensures var g := r.rows[|groups|];
            g.id == id && g.name == req.name && g.description == req.description
    ensures r.outcome.Ok? <==> AllKnown(req.tagIds, knownTags) && AllKnown(req.agentIds, knownUsers)
    ensures r.outcome.Err? ==> r.outcome.failure == Invalid(ReferenceMissing)
    // the non-empty guards make no difference: an empty list and no list both leave the set empty
    // a failed request leaves what was attached before the failing list
    ensures !AllKnown(req.tagIds, knownTags) ==> r.rows[|groups|].tags == {} && r.rows[|groups|].agents == {}
    ensures AllKnown(req.tagIds, knownTags) && !AllKnown(req.agentIds, knownUsers) ==>
      r.rows[|groups|].tags == IdSet(req.tagIds.GetOr([])) && r.rows[|groups|].agents == {}
    ensures r.outcome.Ok? ==>
      && r.outcome.value == r.rows[|groups|]
      && r.outcome.value.tags == IdSet(req.tagIds.GetOr([]))
      && r.outcome.value.agents == IdSet(req.agentIds.GetOr([]))
  {
    var g := Group(id, req.name, req.description, {}, {});
    if NonEmpty(req.tagIds) && !AllKnown(req.tagIds, knownTags) then
      Stored(groups + [g], Err(Invalid(ReferenceMissing)))
    else
      var tagged := if NonEmpty(req.tagIds) then g.(tags := IdSet(req.tagIds.value)) else g;
      if NonEmpty(req.agentIds) && !AllKnown(req.agentIds, knownUsers) then
        Stored(groups + [tagged], Err(Invalid(ReferenceMissing)))
      else
        var staffed := if NonEmpty(req.agentIds) then tagged.(agents := IdSet(req.agentIds.value)) else tagged;
        Stored(groups + [staffed], Ok(staffed))
  }

  /** The position of the group with primary key `id`. */
  function GroupIndex(groups: seq<Group>, id: int): (r: Option<nat>)
    ensures r.None? <==> forall j :: 0 <= j < |groups| ==> groups[j].id != id
    ensures r.Some? ==> r.value < |groups| && groups[r.value].id == id
  {
    FirstIndex(groups, (g: Group) => g.id == id)
  }

  /** Edits group `id`: each supplied list, empty or not, replaces the
      corresponding set; an absent list leaves it as it was. Replacing a
      set is not atomic: the links missing from the list are deleted, and
      the new links are inserted in one statement that an unknown id fails.
      So a failed replacement leaves the old set cut down to the listed
      ids, and a failure in the tag list stops before the member list. */
  function UpdateGroup(groups: seq<Group>, id: int, tagIds: Option<seq<int>>, agentIds: Option<seq<int>>,
                       knownTags: set<int>, knownUsers: set<int>): (r: Stored<Group, Group>)
    ensures |r.rows| == |groups|
    ensures r.outcome == Err(NotFound) <==> GroupIndex(groups, id).None?
    ensures r.outcome.Err? && r.outcome.failure != NotFound ==> r.outcome.failure == Invalid(ReferenceMissing)
    ensures GroupIndex(groups, id).None? ==> r.rows == groups
    ensures GroupIndex(groups, id).Some? ==>
      var k := GroupIndex(groups, id).value;
      var g := groups[k];
      var h := r.rows[k];
      && (forall j :: 0 <= j < |groups| && j != k ==> r.rows[j] == groups[j])
      && h.id == g.id && h.name == g.name && h.description == g.description
      && (r.outcome.Ok? <==> AllKnown(tagIds, knownTags) && AllKnown(agentIds, knownUsers))
      && (AllKnown(tagIds, knownTags) ==> h.tags == (if tagIds.Some? then IdSet(tagIds.value) else g.tags))
      && (!AllKnown(tagIds, knownTags) ==> h == g.(tags := g.tags * IdSet(tagIds.value)))
      && (AllKnown(tagIds, knownTags) && !AllKnown(agentIds, knownUsers) ==>
            h.agents == g.agents * IdSet(agentIds.value))
      && (r.outcome.Ok? ==>
            h.agents == (if agentIds.Some? then IdSet(agentIds.value) else g.agents) && r.outcome.value == h)
  {
    match GroupIndex(groups, id)
    case None => Stored(groups, Err(NotFound))
    case Some(k) =>
      var g := groups[k];
      if !AllKnown(tagIds, knownTags) then
        Stored(groups[k := g.(tags := g.tags * IdSet(tagIds.value))], Err(Invalid(ReferenceMissing)))
      else
        var tagged := if tagIds.Some? then g.(tags := IdSet(tagIds.value)) else g;
        if !AllKnown(agentIds, knownUsers) then
          Stored(groups[k := tagged.(agents := g.agents * IdSet(agentIds.value))], Err(Invalid(ReferenceMissing)))
        else
          var staffed := if agentIds.Some? then tagged.(agents := IdSet(agentIds.value)) else tagged;
          Stored(groups[k := staffed], Ok(staffed))
  }

  // ---------------------------------------------------------------------
  // Tags and SLA policies

  /** An edit body for a tag: the keys it supplies. */
  datatype TagPatch = TagPatch(name: Option<string>, description: Option<string>)

  /** The position of the tag with primary key `id`. */
  function TagIndex(tags: seq<Tag>, id: int): (r: Option<nat>)
    ensures r.None? <==> forall j :: 0 <= j < |tags| ==> tags[j].id != id
    ensures r.Some? ==> r.value < |tags| && tags[r.value].id == id
  {
    FirstIndex(tags, (t: Tag) => t.id == id)
  }

  /** Edits tag `id`, overwriting exactly the supplied keys. */
  function UpdateTag(tags: seq<Tag>, id: int, patch: TagPatch): (r: Stored<Tag, Tag>)
    ensures |r.rows| == |tags|
    ensures r.outcome.Err? <==> forall j :: 0 <= j < |tags| ==> tags[j].id != id
    ensures r.outcome.Err? ==> r.outcome.failure == NotFound && r.rows == tags
    ensures r.outcome.Ok? ==>
      exists k :: 0 <= k < |tags| && tags[k].id == id
        && r.rows == tags[k := r.outcome.value]
        && r.outcome.value == Tag(id, patch.name.GetOr(tags[k].name), patch.description.GetOr(tags[k].description))
  {
    match TagIndex(tags, id)
    case None => Stored(tags, Err(NotFound))
    case Some(k) =>
      var t := tags[k].(name := patch.name.GetOr(tags[k].name),
                        description := patch.description.GetOr(tags[k].description));
      Stored(tags[k := t], Ok(t))
  }

  /** An edit body for a policy: the keys it supplies; the priority arrives
      as text and is checked against the enum when the row is saved. */
  datatype PolicyPatch = PolicyPatch(priority: Option<string>, responseTime: Option<int>, resolutionTime: Option<int>)

  /** Whether some other row than position `k` already has priority `p`. */
  predicate PriorityTakenElsewhere(policies: seq<SlaPolicy>, k: int, p: Priority) {
    exists j :: 0 <= j < |policies| && j != k && policies[j].priority == p
  }

  /** The position of the policy with primary key `id`. */
  function PolicyIndex(policies: seq<SlaPolicy>, id: int): (r: Option<nat>)
    ensures r.None? <==> forall j :: 0 <= j < |policies| ==> policies[j].id != id
    ensures r.Some? ==> r.value < |policies| && policies[r.value].id == id
  {
    FirstIndex(policies, (p: SlaPolicy) => p.id == id)
  }

  /** The priority policy `k` would have after the edit: the sent literal
      when it names a priority, the current one when none is sent. */
  function EditedPriority(current: SlaPolicy, patch: PolicyPatch): Option<Priority> {
    if patch.priority.Some? then ParsePriority(patch.priority.value) else Some(current.priority)
  }

  /** Edits policy `id`, overwriting exactly the supplied keys. The save
      rejects a priority outside the enum and, through the unique
      constraint, a priority another policy already has. */
  function UpdateSlaPolicy(policies: seq<SlaPolicy>, id: int, patch: PolicyPatch): (r: Stored<SlaPolicy, SlaPolicy>)
    ensures |r.rows| == |policies|
    ensures r.outcome == Err(NotFound) <==> forall j :: 0 <= j < |policies| ==> policies[j].id != id
    ensures r.outcome.Err? ==> r.rows == policies
    // the save succeeds exactly when the resulting priority is valid and no other row holds it
    ensures PolicyIndex(policies, id).Some? ==>
      var k := PolicyIndex(policies, id).value;
      var p := EditedPriority(policies[k], patch);
      && (r.outcome.Ok? <==> p.Some? && !PriorityTakenElsewhere(policies, k, p.value))
      && (p.Some? && PriorityTakenElsewhere(policies, k, p.value) ==> r.outcome == Err(Invalid(PriorityTaken)))
    ensures (patch.priority.Some? && ParsePriority(patch.priority.value).None?
             && exists j :: 0 <= j < |policies| && policies[j].id == id) ==> r.outcome == Err(Invalid(ValueInvalid))
    ensures r.outcome.Ok? ==>
      exists k :: 0 <= k < |policies| && policies[k].id == id
        && r.rows == policies[k := r.outcome.value]
        && r.outcome.value.id == id
        && (patch.priority.Some? ==> PriorityName(r.outcome.value.priority) == patch.priority.value)
        && (patch.priority.None? ==> r.outcome.value.priority == policies[k].priority)
        && r.outcome.value.responseTime == patch.responseTime.GetOr(policies[k].responseTime)
        && r.outcome.value.resolutionTime == patch.resolutionTime.GetOr(policies[k].resolutionTime)
    // the unique constraint is an invariant of the table
    ensures UniquePriorities(policies) ==> UniquePriorities(r.rows)
  {
    match PolicyIndex(policies, id)
    case None => Stored(policies, Err(NotFound))
    case Some(k) =>
      var current := policies[k];
      var priority := EditedPriority(current, patch);
      if priority.None? then Stored(policies, Err(Invalid(ValueInvalid)))
      else if PriorityTakenElsewhere(policies, k, priority.value) then Stored(policies, Err(Invalid(PriorityTaken)))
      else
        var edited := SlaPolicy(current.id, priority.value, patch.responseTime.GetOr(current.responseTime),
                                patch.resolutionTime.GetOr(current.resolutionTime));
        Stored(policies[k := edited], Ok(edited))
  }

  // ---------------------------------------------------------------------
  // Administrator dashboard

  datatype UserStats = UserStats(total: nat, agents: nat, customers: nat)

  datatype AdminDashboard = AdminDashboard(tickets: TicketStats, users: UserStats, groups: nat, recent: seq<Ticket>)

  /** The number of users with role `role`. */
  function RoleCount(users: seq<User>, role: Role): nat {
    Count(users, (u: User) => u.role == role)
  }

  /** Counting a role peels off the first user. */
  lemma RoleCountStep(users: seq<User>, role: Role)
    requires |users| > 0
    ensures RoleCount(users, role) == (if users[0].role == role then 1 else 0) + RoleCount(users[1..], role)
  {
  }

  /** The three role counts partition the user table. */
  lemma {:induction false} RolePartition(users: seq<User>)
    ensures RoleCount(users, Admin) + RoleCount(users, Agent) + RoleCount(users, Customer) == |users|
  {
    if |users| > 0 {
      RolePartition(users[1..]);
      RoleCountStep(users, Admin);
      RoleCountStep(users, Agent);
      RoleCountStep(users, Customer);
    }
  }

  /** Users counted by role. Admins are counted only in the total, so
      agents and customers fill it exactly when there is no admin. */
  function CountUsers(users: seq<User>): (r: UserStats)
    ensures r.total == |users|
    ensures r.agents == RoleCount(users, Agent)
    ensures r.customers == RoleCount(users, Customer)
    ensures r.agents + r.customers <= r.total
    ensures r.agents + r.customers == r.total <==> RoleCount(users, Admin) == 0
  {
    RolePartition(users);
    UserStats(|users|, RoleCount(users, Agent), RoleCount(users, Customer))
  }

  /** The dashboard: table-wide statistics and the ten newest tickets. */
  function GetAdminDashboard(tickets: seq<Ticket>, users: seq<User>, groups: seq<Group>): (r: AdminDashboard)
    ensures |r.recent| == Min(10, |tickets|)
    ensures NewestFirst(r.recent)
    ensures multiset(r.recent) <= multiset(tickets)
    ensures forall x, y :: x in tickets && x !in r.recent && y in r.recent ==> y.createdAt >= x.createdAt
    ensures r.tickets.open + r.tickets.resolved + r.tickets.closed <= r.tickets.total == |tickets|
    ensures r.tickets.open == StatusCount(tickets, Open)
    ensures r.tickets.resolved == StatusCount(tickets, Resolved)
    ensures r.tickets.closed == StatusCount(tickets, Closed)
    ensures r.users.agents + r.users.customers <= r.users.total == |users|
    ensures r.users.agents == RoleCount(users, Agent)
    ensures r.users.customers == RoleCount(users, Customer)
    ensures r.groups == |groups|
  {
    NewestAreDrawnFromInput(tickets, 10);
    NewestDominates(tickets, 10);
    AdminDashboard(Statistics(tickets), CountUsers(users), |groups|, Newest(tickets, 10))
  }
}

=== FILE: dashboard.dfy ===
/** The customer and agent dashboards: counts by status, the average
    resolution time and the five newest tickets. */
module Dashboard {
  import opened Entities
  import opened Seqs
  import opened Recency
  import opened Access
  import opened Tally
  import Sla

  function Sum(xs: seq<int>): int {
    if |xs| == 0 then 0 else xs[0] + Sum(xs[1..])
  }

  /** Rounds n / d to the nearest integer, halves upward (`Math.round`). */
  function RoundHalfUp(n: int, d: int): int
    requires d > 0
  {
    (2 * n + d) / (2 * d)
  }

  /** The rounded value r is the integer nearest to n / d, a half rounding
      up: r - 1/2 <= n / d < r + 1/2. */
  lemma RoundHalfUpIsNearest(n: int, d: int)
    requires d > 0
    ensures var r := RoundHalfUp(n, d);
            r * (2 * d) <= 2 * n + d < r * (2 * d) + 2 * d
  {
    var q := (2 * n + d) / (2 * d);
    assert q * (2 * d) + (2 * n + d) % (2 * d) == 2 * n + d;
  }

  function ResolvedTickets(tickets: seq<Ticket>): seq<Ticket> {
    Filter(tickets, (t: Ticket) => t.status == Resolved)
  }

  /** Time from creation to the last update, per resolved ticket. */
  function Durations(tickets: seq<Ticket>): (r: seq<int>)
    ensures |r| == |tickets|
    ensures forall i :: 0 <= i < |r| ==> r[i] == tickets[i].updatedAt - tickets[i].createdAt
  {
    seq(|tickets|, i requires 0 <= i < |tickets| => tickets[i].updatedAt - tickets[i].createdAt)
  }

  /** Average hours from creation to last update over the resolved tickets,
      rounded half up; zero when there are no tickets or none is resolved.
      The arithmetic is exact here, where JavaScript computes in floating point. */
  function AverageResolutionTime(tickets: seq<Ticket>): (r: int)
    ensures |tickets| == 0 ==> r == 0
    ensures |ResolvedTickets(tickets)| == 0 ==> r == 0
  {
    if |tickets| == 0 then 0
    else
      var resolved := ResolvedTickets(tickets);
      if |resolved| == 0 then 0
      else RoundHalfUp(Sum(Durations(resolved)), Sla.HourMs * |resolved|)
  }

  /** With some ticket resolved, the average is the mean creation-to-update
      time of the resolved tickets in hours, rounded to the nearest integer
      with halves upward. */
  lemma AverageIsRoundedMean(tickets: seq<Ticket>)
    requires |ResolvedTickets(tickets)| > 0
    ensures var r := AverageResolutionTime(tickets);
            var total := Sum(Durations(ResolvedTickets(tickets)));
            var d := Sla.HourMs * |ResolvedTickets(tickets)|;
            r * (2 * d) <= 2 * total + d < r * (2 * d) + 2 * d
  {
    RoundHalfUpIsNearest(Sum(Durations(ResolvedTickets(tickets))), Sla.HourMs * |ResolvedTickets(tickets)|);
  }

  datatype Stats = Stats(count: nat, pending: nat, resolved: nat, averageResolutionTime: int)

  datatype Board = Board(stats: Stats, recent: seq<Ticket>)

  /** The statistics and recent list over one set of tickets: "pending"
      counts only open tickets, "resolved" only resolved ones (closed
      tickets are neither). */
  function Summarize(tickets: seq<Ticket>): (b: Board)
    ensures b.stats.count == |tickets|
    ensures b.stats.pending + b.stats.resolved <= b.stats.count
    ensures b.stats.pending == StatusCount(tickets, Open)
    ensures b.stats.resolved == |ResolvedTickets(tickets)|
    ensures b.stats.averageResolutionTime == AverageResolutionTime(tickets)
    ensures |b.recent| == Recency.Min(5, |tickets|)
    ensures b.recent == Newest(tickets, 5)
    ensures forall i :: 0 <= i < |b.recent| ==> b.recent[i] in tickets
  {
    OpenAndResolvedFit(tickets);
    NewestAreDrawnFromInput(tickets, 5);
    Board(Stats(|tickets|, StatusCount(tickets, Open), StatusCount(tickets, Resolved),
                AverageResolutionTime(tickets)),
          Newest(tickets, 5))
  }

  const EmptyBoard: Board := Board(Stats(0, 0, 0, 0), [])

  /** The tickets a customer owns, in table order. */
  function Owned(tickets: seq<Ticket>, customer: int): seq<Ticket> {
    Filter(tickets, (t: Ticket) => t.customerId == customer)
  }

  /** A ticket is selected for a customer exactly when it is in the table
      and the customer owns it. */
  lemma OwnedExactly(tickets: seq<Ticket>, customer: int, t: Ticket)
    ensures t in Owned(tickets, customer) <==> t in tickets && t.customerId == customer
  {
    if t in Owned(tickets, customer) {
      FilterMember(tickets, (t: Ticket) => t.customerId == customer, t);
    }
    if t in tickets && t.customerId == customer {
      var i :| 0 <= i < |tickets| && tickets[i] == t;
    }
  }

  /** A customer's dashboard is the summary of exactly the customer's own
      tickets, and is empty when the customer owns none. */
  function CustomerDashboard(tickets: seq<Ticket>, caller: User): (b: Board)
    ensures b == Summarize(Owned(tickets, caller.id))
    ensures forall i :: 0 <= i < |b.recent| ==> b.recent[i] in tickets && b.recent[i].customerId == caller.id
    ensures b.stats.count == |Owned(tickets, caller.id)|
    ensures b.stats.pending + b.stats.resolved <= b.stats.count
    ensures (forall i :: 0 <= i < |tickets| ==> tickets[i].customerId != caller.id) ==> b == EmptyBoard
  {
    var owned := (t: Ticket) => t.customerId == caller.id;
    var mine := Owned(tickets, caller.id);
    assert (forall i :: 0 <= i < |tickets| ==> tickets[i].customerId != caller.id) ==> mine == [] by {
      if forall i :: 0 <= i < |tickets| ==> tickets[i].customerId != caller.id {
        FilterNone(tickets, owned);
      }
    }
    var b := Summarize(mine);
    forall i | 0 <= i < |b.recent| ensures b.recent[i] in tickets && b.recent[i].customerId == caller.id {
      OwnedExactly(tickets, caller.id, b.recent[i]);
    }
    b
  }

  /** The tickets counted for an agent: those sharing a tag with the
      agent's effective tags. */
  function AgentTickets(tickets: seq<Ticket>, groups: seq<Group>, agent: int): seq<Ticket> {
    var agentTags := EffectiveTags(groups, agent);
    Filter(tickets, (t: Ticket) => HasMatchingTag(t.tags, agentTags))
  }

  /** A ticket is counted for an agent exactly when it is in the table and
      carries a tag covered by one of the agent's groups. */
  lemma AgentTicketsExactly(tickets: seq<Ticket>, groups: seq<Group>, agent: int, t: Ticket)
    ensures t in AgentTickets(tickets, groups, agent) <==>
      t in tickets && exists g, tag :: g in groups && agent in g.agents && tag in g.tags && tag in t.tags
  {
    var agentTags := EffectiveTags(groups, agent);
    var reached := (t: Ticket) => HasMatchingTag(t.tags, agentTags);
    if t in AgentTickets(tickets, groups, agent) {
      FilterMember(tickets, reached, t);
      var tag :| tag in t.tags && tag in agentTags;
      var g :| g in groups && agent in g.agents && tag in g.tags;
    }
    if t in tickets && exists g, tag :: g in groups && agent in g.agents && tag in g.tags && tag in t.tags {
      var g, tag :| g in groups && agent in g.agents && tag in g.tags && tag in t.tags;
      assert tag in agentTags;
      var i :| 0 <= i < |tickets| && tickets[i] == t;
      assert reached(tickets[i]);
    }
  }

  /** An agent's dashboard: all zeros and no recent tickets when the agent
      is in no group; otherwise the summary of the tickets that carry a
      tag from the agent's groups. */
  function AgentDashboard(tickets: seq<Ticket>, groups: seq<Group>, caller: User): (b: Board)
    ensures b == Summarize(AgentTickets(tickets, groups, caller.id))
    ensures GroupsOf(groups, caller.id) == [] ==> b == EmptyBoard
    ensures forall i :: 0 <= i < |b.recent| ==>
      (b.recent[i] in tickets
       && exists g, tag :: g in groups && caller.id in g.agents && tag in g.tags && tag in b.recent[i].tags)
    ensures b.stats.pending + b.stats.resolved <= b.stats.count <= |tickets|
  {
    if GroupsOf(groups, caller.id) == [] then
      NoGroupsSummaryIsEmpty(tickets, groups, caller.id);
      EmptyBoard
    else
      var b := Summarize(AgentTickets(tickets, groups, caller.id));
      forall i | 0 <= i < |b.recent|
        ensures b.recent[i] in tickets
        ensures exists g, tag :: g in groups && caller.id in g.agents && tag in g.tags && tag in b.recent[i].tags
      {
        AgentTicketsExactly(tickets, groups, caller.id, b.recent[i]);
      }
      b
  }

  /** The early return for an agent without groups agrees with the general
      path: such an agent reaches no ticket, so the summary is empty too. */
  lemma {:induction false} NoGroupsSummaryIsEmpty(tickets: seq<Ticket>, groups: seq<Group>, agent: int)
    requires GroupsOf(groups, agent) == []
    ensures Summarize(AgentTickets(tickets, groups, agent)) == EmptyBoard
  {
    NoGroupsNoTags(groups, agent);
    var agentTags := EffectiveTags(groups, agent);
    forall i | 0 <= i < |tickets| ensures !HasMatchingTag(tickets[i].tags, agentTags) {
      MatchingIsOverlap(tickets[i].tags, agentTags);
    }
    FilterNone(tickets, (t: Ticket) => HasMatchingTag(t.tags, agentTags));
  }
}

=== FILE: entities.dfy ===
/** The persisted records of the ticketing backend, with time as integer
    milliseconds, ids as integers and many-to-many associations as sets of ids. */
module Entities {
  import opened Outcomes

  datatype Status = Open | InProgress | Resolved | Closed

  datatype Priority = Low | Medium | High | Critical

  datatype Role = Admin | Agent | Customer

  /** A new ticket always starts in this status. */
  const DefaultStatus: Status := Open

  /** The enum literal stored in the database for a status. */
  function StatusName(s: Status): string {
    match s
    case Open => "open"
    case InProgress => "in_progress"
    case Resolved => "resolved"
    case Closed => "closed"
  }

  function PriorityName(p: Priority): string {
    match p
    case Low => "low"
    case Medium => "medium"
    case High => "high"
    case Critical => "critical"
  }

  function RoleName(r: Role): string {
    match r
    case Admin => "admin"
    case Agent => "agent"
    case Customer => "customer"
  }

  /** The enum check a status column applies to a client-supplied text. */
  function ParseStatus(text: string): (r: Option<Status>)
    ensures forall s :: r == Some(s) <==> StatusName(s) == text
  {
    if text == "open" then Some(Open)
    else if text == "in_progress" then Some(InProgress)
    else if text == "resolved" then Some(Resolved)
    else if text == "closed" then Some(Closed)
    else None
  }

  function ParsePriority(text: string): (r: Option<Priority>)
    ensures forall p :: r == Some(p) <==> PriorityName(p) == text
  {
    if text == "low" then Some(Low)
    else if text == "medium" then Some(Medium)
    else if text == "high" then Some(High)
    else if text == "critical" then Some(Critical)
    else None
  }

  function ParseRole(text: string): (r: Option<Role>)
    ensures forall role :: r == Some(role) <==> RoleName(role) == text
  {
    if text == "admin" then Some(Admin)
    else if text == "agent" then Some(Agent)
    else if text == "customer" then Some(Customer)
    else None
  }

  /** A ticket row together with its tag associations. Both due dates are
      nullable columns; the customer is required and the agent optional. */
  datatype Ticket = Ticket(
    id: int,
    title: string,
    description: string,
    status: Status,
    priority: Priority,
    responseDueDate: Option<int>,
    resolutionDueDate: Option<int>,
    customerId: int,
    agentId: Option<int>,
    tags: set<int>,
    createdAt: int,
    updatedAt: int)

  /** An SLA policy row: hour budgets for one priority. The schema asks only
      for integers; it imposes neither positivity nor an ordering. */
  datatype SlaPolicy = SlaPolicy(id: int, priority: Priority, responseTime: int, resolutionTime: int)

  datatype Tag = Tag(id: int, name: string, description: string)

  /** A group with the tags it covers and the users that belong to it. */
  datatype Group = Group(id: int, name: string, description: string, tags: set<int>, agents: set<int>)

  /** A user row; the password is kept as the opaque text the store holds. */
  datatype User = User(id: int, username: string, email: string, password: string, role: Role)

  /** The administrator account the initialisation script seeds. */
  const SeedAdmin: User := User(1, "admin", "admin@gmail.com", "admin123", Admin)

  lemma SeedAdminIsAdmin()
    ensures SeedAdmin.role == Admin
  {
  }

  /** The set of elements of a request's id list (association tables have
      composite keys, so repetitions collapse). */
  function IdSet(ids: seq<int>): (r: set<int>)
    ensures forall x :: x in r <==> x in ids
  {
    set x | x in ids
  }
}

=== FILE: monitor.dfy ===
/** The overdue sweep: one pass over the ticket table at an explicit `now`
    that closes every ticket whose response deadline has strictly passed. */
module Monitor {
  import opened Outcomes
  import opened Entities
  import opened Seqs

  /** The sweep's selection: not closed, and a response deadline strictly
      before `now`. The resolution deadline plays no part. */
  predicate Overdue(t: Ticket, now: int) {
    && t.status != Closed
    && t.responseDueDate.Some?
    && t.responseDueDate.value < now
  }

  /** The write the sweep performs on a selected ticket; saving the change
      stamps `updatedAt`. */
  function CloseTicket(t: Ticket, now: int): Ticket {
    t.(status := Closed, updatedAt := now)
  }

  function SweepOne(t: Ticket, now: int): Ticket {
    if Overdue(t, now) then CloseTicket(t, now) else t
  }

  /** The tickets the pass's query returns. */
  function SelectOverdue(tickets: seq<Ticket>, now: int): seq<Ticket> {
    Filter(tickets, t => Overdue(t, now))
  }

  /** No selected ticket's write fails. */
  predicate WritesSucceed(tickets: seq<Ticket>, now: int, failing: set<int>) {
    forall i :: 0 <= i < |tickets| && Overdue(tickets[i], now) ==> tickets[i].id !in failing
  }

  datatype SweepResult = SweepResult(tickets: seq<Ticket>, closed: nat)

  /** One pass. The writes for the tickets whose ids are in `failing` throw;
      a single handler encloses the query and the whole loop, so the first
      failing write ends the pass and the later tickets stay as they were. */
  function Sweep(tickets: seq<Ticket>, now: int, failing: set<int>): (r: SweepResult)
    ensures |r.tickets| == |tickets|
    ensures r.closed <= |tickets|
    // each ticket is either untouched or an overdue ticket that was closed
    ensures forall i {:trigger r.tickets[i]} :: 0 <= i < |tickets| ==>
      r.tickets[i] == tickets[i] || (Overdue(tickets[i], now) && r.tickets[i] == CloseTicket(tickets[i], now))
    // a ticket whose write fails is never closed
    ensures forall i {:trigger r.tickets[i]} :: 0 <= i < |tickets| && tickets[i].id in failing ==> r.tickets[i] == tickets[i]
  {
    if |tickets| == 0 then SweepResult([], 0)
    else
      var t := tickets[0];
      assert tickets == [t] + tickets[1..];
      if Overdue(t, now) && t.id in failing then SweepResult(tickets, 0)
      else
        var rest := Sweep(tickets[1..], now, failing);
        if Overdue(t, now) then SweepResult([CloseTicket(t, now)] + rest.tickets, rest.closed + 1)
        else SweepResult([t] + rest.tickets, rest.closed)
  }

  /** Where the pass ends: the position of the first overdue ticket whose
      write fails, or the table's length when there is none. */
  function Halt(tickets: seq<Ticket>, now: int, failing: set<int>): (k: nat)
    ensures k <= |tickets|
    ensures forall i :: 0 <= i < k ==> !(Overdue(tickets[i], now) && tickets[i].id in failing)
    ensures k < |tickets| ==> Overdue(tickets[k], now) && tickets[k].id in failing
  {
    if |tickets| == 0 then 0
    else if Overdue(tickets[0], now) && tickets[0].id in failing then 0
    else 1 + Halt(tickets[1..], now, failing)
  }

  /** One step of the pass: it stops at a first ticket whose write fails,
      and otherwise applies the single-ticket step to it and goes on. */
  lemma SweepStep(tickets: seq<Ticket>, now: int, failing: set<int>)
    requires |tickets| > 0
    ensures var t := tickets[0];
            Sweep(tickets, now, failing).tickets
            == if Overdue(t, now) && t.id in failing then tickets
               else [SweepOne(t, now)] + Sweep(tickets[1..], now, failing).tickets
    ensures var t := tickets[0];
            Halt(tickets, now, failing)
            == if Overdue(t, now) && t.id in failing then 0 else 1 + Halt(tickets[1..], now, failing)
  {
  }

  /** Shifting a position past a processed first ticket: what holds at
      `k - 1` of the rest's pass holds at `k` of the whole. */
  lemma ShiftPosition(tickets: seq<Ticket>, now: int, r: seq<Ticket>, rest: seq<Ticket>, h: nat, k: int)
    requires 0 < k < |tickets| && |rest| == |tickets| - 1
    requires r == [SweepOne(tickets[0], now)] + rest
    requires rest[k - 1] == if k - 1 < h then SweepOne(tickets[1..][k - 1], now) else tickets[1..][k - 1]
    ensures r[k] == if k < h + 1 then SweepOne(tickets[k], now) else tickets[k]
  {
    assert r[k] == rest[k - 1];
    assert tickets[1..][k - 1] == tickets[k];
  }

  /** The pass applies the single-ticket step to every ticket before the
      first failing write and leaves that ticket and all later ones as they
      were. */
  lemma {:induction false} SweepStopsAtFirstFailure(tickets: seq<Ticket>, now: int, failing: set<int>, k: int)
    requires 0 <= k < |tickets|
    ensures Sweep(tickets, now, failing).tickets[k]
            == if k < Halt(tickets, now, failing) then SweepOne(tickets[k], now) else tickets[k]
  {
    SweepStep(tickets, now, failing);
    var t := tickets[0];
    if !(Overdue(t, now) && t.id in failing) && k > 0 {
      var rest := Sweep(tickets[1..], now, failing).tickets;
      SweepStopsAtFirstFailure(tickets[1..], now, failing, k - 1);
      ShiftPosition(tickets, now, Sweep(tickets, now, failing).tickets, rest, Halt(tickets[1..], now, failing), k);
    }
  }

  /** Without failures the pass applies the single-ticket step everywhere
      and closes exactly the selection. */
  lemma {:induction false} SweepWithoutFailures(tickets: seq<Ticket>, now: int, failing: set<int>)
    requires WritesSucceed(tickets, now, failing)
    ensures var r := Sweep(tickets, now, failing);
            && (forall i :: 0 <= i < |tickets| ==> r.tickets[i] == SweepOne(tickets[i], now))
            && r.closed == |SelectOverdue(tickets, now)|
  {
    if |tickets| > 0 {
      var t := tickets[0];
      assert tickets == [t] + tickets[1..];
      assert WritesSucceed(tickets[1..], now, failing) by {
        forall k | 0 <= k < |tickets[1..]| && Overdue(tickets[1..][k], now)
          ensures tickets[1..][k].id !in failing
        {
          assert tickets[1..][k] == tickets[k + 1];
        }
      }
      SweepWithoutFailures(tickets[1..], now, failing);
      assert !(Overdue(t, now) && t.id in failing) by {
        assert tickets[0] == t;
      }
    }
  }

  /** Boundary cases of the selection: a deadline equal to `now` is not yet
      overdue, a null deadline never is, a closed ticket never is, and the
      resolution deadline is irrelevant. */
  lemma SelectionBoundaries(t: Ticket, now: int, resolution: Option<int>)
    ensures !Overdue(t.(responseDueDate := Some(now)), now)
    ensures !Overdue(t.(responseDueDate := None), now)
    ensures !Overdue(t.(status := Closed), now)
    ensures Overdue(t.(resolutionDueDate := resolution), now) == Overdue(t, now)
    ensures t.status != Closed ==> Overdue(t.(responseDueDate := Some(now - 1)), now)
  {
  }

  /** A table with nothing overdue is left exactly as it is. */
  lemma {:induction false} NothingOverdueIsFixpoint(tickets: seq<Ticket>, now: int, failing: set<int>)
    requires forall i :: 0 <= i < |tickets| ==> !Overdue(tickets[i], now)
    ensures Sweep(tickets, now, failing) == SweepResult(tickets, 0)
  {
    if |tickets| > 0 {
      NothingOverdueIsFixpoint(tickets[1..], now, failing);
      assert tickets == [tickets[0]] + tickets[1..];
    }
  }

  /** Idempotence: after a pass whose writes all succeeded, a second pass at
      the same `now` closes nothing and changes nothing, whatever fails. */
  lemma SweepIsIdempotent(tickets: seq<Ticket>, now: int, failing: set<int>, failing2: set<int>)
    requires WritesSucceed(tickets, now, failing)
    ensures var first := Sweep(tickets, now, failing);
            Sweep(first.tickets, now, failing2) == SweepResult(first.tickets, 0)
  {
    var first := Sweep(tickets, now, failing);
    SweepWithoutFailures(tickets, now, failing);
    assert forall i :: 0 <= i < |first.tickets| ==> first.tickets[i] == SweepOne(tickets[i], now);
    NothingOverdueIsFixpoint(first.tickets, now, failing2);
  }

  /** In a pass where no write fails, an overdue ticket ends closed, with
      only its status and timestamp changed. */
  lemma OverdueTicketIsClosed(tickets: seq<Ticket>, now: int, i: int)
    requires 0 <= i < |tickets|
    requires Overdue(tickets[i], now)
    ensures Sweep(tickets, now, {}).tickets[i] == tickets[i].(status := Closed, updatedAt := now)
  {
    SweepWithoutFailures(tickets, now, {});
  }
}

=== FILE: outcomes.dfy ===
/** Optional values and the outcome of a request handler.

    HTTP status codes are collapsed into the `Failure` kinds: 401 is
    `Unauthenticated`, 403 `Denied`, 404 `NotFound`, and 400 `Invalid`
    with the reason the handler reports. */
module Outcomes {

  /** A nullable column, an absent request field or a query that found nothing. */
  datatype Option<+T> = None | Some(value: T) {

    /** The value if present, otherwise `default`. */
    function GetOr(default: T): T {
      match this
      case Some(v) => v
      case None => default
    }
  }

  /** Why a request was rejected with a client error. */
  datatype Reason =
    | PolicyMissing       // no SLA policy row for the requested priority
    | RoleInvalid         // registration named a role outside the three
    | UpdatesInvalid      // profile update named a key outside the allow-list
    | CredentialsInvalid  // login failed, whatever the cause
    | ValueInvalid        // a column value the schema rejects (enum, not-null)
    | ReferenceMissing    // an association names an id that does not exist
    | PriorityTaken       // a second SLA policy for the same priority

  datatype Failure = Unauthenticated | Denied | NotFound | Invalid(reason: Reason)

  datatype Result<+T> = Ok(value: T) | Err(failure: Failure)

  /** A table after a handler ran, with the handler's outcome. A handler may
      fail after an earlier write already took effect, so a failed outcome
      does not by itself mean the table is unchanged. */
  datatype Stored<+R, +T> = Stored(rows: seq<R>, outcome: Result<T>)
}

=== FILE: recency.dfy ===
/** Ordering of tickets by creation time, newest first, and the
    "most recent N" lists built from it. */
module Recency {
  import opened Entities

  predicate NewestFirst(s: seq<Ticket>) {
    forall i, j :: 0 <= i < j < |s| ==> s[i].createdAt >= s[j].createdAt
  }

  /** Places `t` into a newest-first sequence, ahead of the tickets created
      at the same instant. */
  function Insert(t: Ticket, s: seq<Ticket>): (r: seq<Ticket>)
    requires NewestFirst(s)
    ensures |r| == |s| + 1
    ensures NewestFirst(r)
    ensures forall k :: 0 <= k < |r| ==> r[k] == t || r[k] in s
  {
    if |s| == 0 then [t]
    else if t.createdAt >= s[0].createdAt then [t] + s
    else [s[0]] + Insert(t, s[1..])
  }

  /** Insertion adds exactly the one ticket. */
  lemma {:induction false} InsertAddsOne(t: Ticket, s: seq<Ticket>)
    requires NewestFirst(s)
    ensures multiset(Insert(t, s)) == multiset(s) + multiset{t}
  {
    if |s| > 0 && t.createdAt < s[0].createdAt {
      InsertAddsOne(t, s[1..]);
      assert s == [s[0]] + s[1..];
    }
  }

  /** The tickets of `s` ordered by `createdAt`, descending. */
  function SortByRecency(s: seq<Ticket>): (r: seq<Ticket>)
    ensures |r| == |s|
    ensures NewestFirst(r)
  {
    if |s| == 0 then []
    else Insert(s[0], SortByRecency(s[1..]))
  }

  /** Sorting keeps exactly the tickets it was given. */
  lemma {:induction false} SortIsPermutation(s: seq<Ticket>)
    ensures multiset(SortByRecency(s)) == multiset(s)
  {
    if |s| > 0 {
      var rest := SortByRecency(s[1..]);
      SortIsPermutation(s[1..]);
      InsertAddsOne(s[0], rest);
      assert SortByRecency(s) == Insert(s[0], rest);
      assert multiset(s) == multiset{s[0]} + multiset(s[1..]) by {
        assert s == [s[0]] + s[1..];
      }
    }
  }

  function Min(a: int, b: int): int {
    if a <= b then a else b
  }

  /** In a newest-first sequence, every ticket of the first `k` is at least
      as new as every ticket outside them. */
  lemma {:induction false} PrefixDominates(sorted: seq<Ticket>, k: nat)
    requires NewestFirst(sorted)
    requires k <= |sorted|
    ensures forall x, y :: x in sorted && x !in sorted[..k] && y in sorted[..k] ==> y.createdAt >= x.createdAt
  {
    forall x, y | x in sorted && x !in sorted[..k] && y in sorted[..k]
      ensures y.createdAt >= x.createdAt
    {
      var a :| 0 <= a < |sorted| && sorted[a] == x;
      var b :| 0 <= b < k && sorted[..k][b] == y;
    }
  }

  /** The `n` newest tickets of `s`, newest first. */
  function Newest(s: seq<Ticket>, n: nat): (r: seq<Ticket>)
    ensures |r| == Min(n, |s|)
    ensures NewestFirst(r)
  {
    SortByRecency(s)[..Min(n, |s|)]
  }

  /** The list is drawn from `s`, without duplicating any ticket. */
  lemma NewestAreDrawnFromInput(s: seq<Ticket>, n: nat)
    ensures multiset(Newest(s, n)) <= multiset(s)
    ensures forall i :: 0 <= i < |Newest(s, n)| ==> Newest(s, n)[i] in s
  {
    var sorted := SortByRecency(s);
    SortIsPermutation(s);
    var k := Min(n, |s|);
    assert sorted == sorted[..k] + sorted[k..];
    assert multiset(sorted) == multiset(sorted[..k]) + multiset(sorted[k..]);
    forall i | 0 <= i < k ensures sorted[i] in s {
      assert sorted[i] in multiset(sorted);
    }
  }

  /** No ticket of `s` left out of the list is newer than a ticket in it. */
  lemma NewestDominates(s: seq<Ticket>, n: nat)
    ensures forall x, y :: x in s && x !in Newest(s, n) && y in Newest(s, n) ==> y.createdAt >= x.createdAt
  {
    var sorted := SortByRecency(s);
    SortIsPermutation(s);
    PrefixDominates(sorted, Min(n, |s|));
    forall x | x in s ensures x in sorted {
      assert x in multiset(s);
    }
  }
}

=== FILE: seqs.dfy ===
/** Order-preserving selection over query results. */
module Seqs {
  import opened Outcomes

  /** The elements of `s` that satisfy `p`, in their original order. */
  function Filter<T>(s: seq<T>, p: T -> bool): (r: seq<T>)
    ensures |r| <= |s|
    ensures forall i :: 0 <= i < |r| ==> r[i] in s && p(r[i])
    ensures forall i :: 0 <= i < |s| && p(s[i]) ==> s[i] in r
  {
    if |s| == 0 then []
    else
      var rest := Filter(s[1..], p);
      assert s == [s[0]] + s[1..];
      if p(s[0]) then [s[0]] + rest else rest
  }

  /** Selection never duplicates: each element is kept at most as often as
      it occurs. */
  lemma {:induction false} FilterIsSubMultiset<T>(s: seq<T>, p: T -> bool)
    ensures multiset(Filter(s, p)) <= multiset(s)
  {
    if |s| > 0 {
      FilterIsSubMultiset(s[1..], p);
      assert s == [s[0]] + s[1..];
    }
  }

  /** Anything selected comes from `s` and satisfies `p`. */
  lemma FilterMember<T>(s: seq<T>, p: T -> bool, x: T)
    requires x in Filter(s, p)
    ensures x in s && p(x)
  {
    var k :| 0 <= k < |Filter(s, p)| && Filter(s, p)[k] == x;
  }

  /** The number of elements of `s` that satisfy `p`. */
  function Count<T>(s: seq<T>, p: T -> bool): (n: nat)
    ensures n <= |s|
  {
    |Filter(s, p)|
  }

  /** If no element satisfies `p`, nothing is selected. */
  lemma {:induction false} FilterNone<T>(s: seq<T>, p: T -> bool)
    requires forall i :: 0 <= i < |s| ==> !p(s[i])
    ensures Filter(s, p) == []
  {
    if |s| > 0 {
      FilterNone(s[1..], p);
    }
  }

  /** The position of the first element satisfying `p`, if any: a lookup by
      primary key. */
  function FirstIndex<T>(s: seq<T>, p: T -> bool): (r: Option<nat>)
    ensures r.None? <==> forall j :: 0 <= j < |s| ==> !p(s[j])
    ensures r.Some? ==> r.value < |s| && p(s[r.value])
    ensures r.Some? ==> forall j :: 0 <= j < r.value ==> !p(s[j])
  {
    if |s| == 0 then None
    else if p(s[0]) then Some(0)
    else
      match FirstIndex(s[1..], p)
      case None => None
      case Some(k) => Some(k + 1)
  }
}

=== FILE: sla.dfy ===
/** SLA policies and due-date calculation: a table of policy rows, unique by
    priority, queried by the priority text a request supplies. */
module Sla {
  import opened Outcomes
  import opened Entities

  /** Milliseconds in one hour: 60 * 60 * 1000. */
  const HourMs: int := 3600000

  /** The unique constraint on the policy's priority column. */
  predicate UniquePriorities(table: seq<SlaPolicy>) {
    forall i, j :: 0 <= i < j < |table| ==> table[i].priority != table[j].priority
  }

  predicate HasPolicyFor(table: seq<SlaPolicy>, priority: string) {
    exists i :: 0 <= i < |table| && PriorityName(table[i].priority) == priority
  }

  /** The row whose priority literal equals the requested text, if any. */
  function FindPolicy(table: seq<SlaPolicy>, priority: string): (r: Option<SlaPolicy>)
    ensures r.None? <==> !HasPolicyFor(table, priority)
    ensures r.Some? ==> r.value in table && PriorityName(r.value.priority) == priority
  {
    if |table| == 0 then None
    else if PriorityName(table[0].priority) == priority then Some(table[0])
    else
      var r := FindPolicy(table[1..], priority);
      assert forall i :: 1 <= i < |table| ==> table[i] == table[1..][i - 1];
      r
  }

  /** Under the unique constraint, lookup by priority is a partial function:
      whichever row carries the priority is the one found. */
  lemma {:induction false} LookupIsUnique(table: seq<SlaPolicy>, i: int)
    requires UniquePriorities(table)
    requires 0 <= i < |table|
    ensures FindPolicy(table, PriorityName(table[i].priority)) == Some(table[i])
  {
    if i > 0 {
      var name := PriorityName(table[i].priority);
      assert PriorityName(table[0].priority) != name by {
        assert ParsePriority(name) == Some(table[i].priority);
      }
      assert FindPolicy(table, name) == FindPolicy(table[1..], name);
      assert UniquePriorities(table[1..]) by {
        forall a, b | 0 <= a < b < |table[1..]| ensures table[1..][a].priority != table[1..][b].priority {
          assert table[1..][a] == table[a + 1] && table[1..][b] == table[b + 1];
        }
      }
      LookupIsUnique(table[1..], i - 1);
      assert table[1..][i - 1] == table[i];
    }
  }

  datatype DueDates = DueDates(responseDue: int, resolutionDue: int)

  /** The due dates of a ticket of the given priority raised at `now`: each
      budget, in whole hours, added to the same instant. Fails when the
      table has no row for the priority. */
  function CalculateDueDates(table: seq<SlaPolicy>, priority: string, now: int): (r: Result<DueDates>)
    ensures r.Err? <==> !HasPolicyFor(table, priority)
    ensures r.Err? ==> r.failure == Invalid(PolicyMissing)
    ensures r.Ok? ==> ParsePriority(priority).Some?
    ensures r.Ok? ==> exists i :: 0 <= i < |table| && PriorityName(table[i].priority) == priority
                                  && r.value.responseDue == now + table[i].responseTime * HourMs
                                  && r.value.resolutionDue == now + table[i].resolutionTime * HourMs
  {
    match FindPolicy(table, priority)
    case None => Err(Invalid(PolicyMissing))
    case Some(policy) =>
      assert ParsePriority(priority) == Some(policy.priority);
      Ok(DueDates(now + policy.responseTime * HourMs, now + policy.resolutionTime * HourMs))
  }

  /** The resolution deadline is no earlier than the response deadline
      exactly when the policy's resolution budget is no smaller. */
  lemma DueDateOrder(table: seq<SlaPolicy>, i: int, now: int)
    requires UniquePriorities(table)
    requires 0 <= i < |table|
    ensures var d := CalculateDueDates(table, PriorityName(table[i].priority), now);
            && d.Ok?
            && d.value.responseDue - now == table[i].responseTime * HourMs
            && d.value.resolutionDue - now == table[i].resolutionTime * HourMs
            && (d.value.resolutionDue >= d.value.responseDue <==> table[i].resolutionTime >= table[i].responseTime)
  {
    LookupIsUnique(table, i);
  }

  // ---------------------------------------------------------------------
  // The table the setup script seeds.

  const SeedPolicies: seq<SlaPolicy> := [
    SlaPolicy(1, Low, 24, 72),
    SlaPolicy(2, Medium, 12, 48),
    SlaPolicy(3, High, 4, 24),
    SlaPolicy(4, Critical, 1, 8)
  ]

  /** Position of a priority from least to most urgent. */
  function Urgency(p: Priority): nat {
    match p
    case Low => 0
    case Medium => 1
    case High => 2
    case Critical => 3
  }

  /** The seeded hour budgets, as (response, resolution). */
  function SeedBudget(p: Priority): (int, int) {
    match p
    case Low => (24, 72)
    case Medium => (12, 48)
    case High => (4, 24)
    case Critical => (1, 8)
  }

  /** After seeding, each of the four priorities has exactly one policy, it
      carries the seeded budgets, and due-date calculation never fails for
      a valid priority. */
  lemma SeedTableIsComplete(now: int)
    ensures UniquePriorities(SeedPolicies)
    ensures forall p: Priority :: FindPolicy(SeedPolicies, PriorityName(p)).Some?
    ensures forall p: Priority ::
      var policy := FindPolicy(SeedPolicies, PriorityName(p)).value;
      (policy.responseTime, policy.resolutionTime) == SeedBudget(p)
    ensures forall p: Priority :: CalculateDueDates(SeedPolicies, PriorityName(p), now).Ok?
  {
    SeedPrioritiesAreUnique();
    forall p: Priority ensures FindPolicy(SeedPolicies, PriorityName(p)) == Some(SeedPolicies[Urgency(p)]) {
      assert SeedPolicies[Urgency(p)].priority == p;
      LookupIsUnique(SeedPolicies, Urgency(p));
    }
  }

  lemma SeedPrioritiesAreUnique()
    ensures UniquePriorities(SeedPolicies)
    ensures forall i :: 0 <= i < |SeedPolicies| ==> Urgency(SeedPolicies[i].priority) == i
  {
  }

  /** In every seeded row the resolution budget exceeds the response budget,
      and response budgets strictly shrink as urgency grows. */
  lemma SeedBudgetsAreOrdered()
    ensures forall i :: 0 <= i < |SeedPolicies| ==>
      SeedPolicies[i].resolutionTime > SeedPolicies[i].responseTime > 0
    ensures forall i, j :: 0 <= i < j < |SeedPolicies| ==>
      Urgency(SeedPolicies[i].priority) < Urgency(SeedPolicies[j].priority)
      && SeedPolicies[i].responseTime > SeedPolicies[j].responseTime
  {
  }
}

=== FILE: tally.dfy ===
/** Counting tickets by status. */
module Tally {
  import opened Entities
  import opened Seqs

  /** The number of tickets in status `s`. */
  function StatusCount(tickets: seq<Ticket>, s: Status): nat {
    Count(tickets, (t: Ticket) => t.status == s)
  }

  /** Counting a status peels off the first ticket. */
  lemma StatusCountStep(tickets: seq<Ticket>, s: Status)
    requires |tickets| > 0
    ensures StatusCount(tickets, s) == (if tickets[0].status == s then 1 else 0) + StatusCount(tickets[1..], s)
  {
  }

  /** The four status counts partition the table. */
  lemma {:induction false} StatusPartition(tickets: seq<Ticket>)
    ensures StatusCount(tickets, Open) + StatusCount(tickets, InProgress)
            + StatusCount(tickets, Resolved) + StatusCount(tickets, Closed) == |tickets|
  {
    if |tickets| > 0 {
      StatusPartition(tickets[1..]);
      StatusCountStep(tickets, Open);
      StatusCountStep(tickets, InProgress);
      StatusCountStep(tickets, Resolved);
      StatusCountStep(tickets, Closed);
    }
  }

  /** Open and resolved are distinct statuses, so together they never
      exceed the tickets counted. */
  lemma OpenAndResolvedFit(tickets: seq<Ticket>)
    ensures StatusCount(tickets, Open) + StatusCount(tickets, Resolved) <= |tickets|
  {
    StatusPartition(tickets);
  }
}

=== FILE: ticket_routes.dfy ===
/** The role gates of the ticket endpoints. Every route authenticates first;
    some then admit only the listed roles. */
module TicketRoutes {
  import opened Outcomes
  import opened Entities

  datatype Route = CreateTicket | ListTickets | GetTicket | UpdateTicket | AddResponse | DownloadAttachment

  /** The roles a route admits once the caller is authenticated. */
  function AllowedRoles(route: Route): set<Role> {
    match route
    case CreateTicket => {Customer}
    case ListTickets => {Admin, Agent, Customer}
    case GetTicket => {Agent, Admin}
    case UpdateTicket => {Agent, Admin}
    case AddResponse => {Agent, Admin}
    case DownloadAttachment => {Customer, Agent, Admin}
  }

  /** The authentication middleware followed by the route's role check:
      the caller passes through when authenticated with an admitted role. */
  function Gate(caller: Option<User>, route: Route): (r: Result<User>)
    ensures caller.None? ==> r == Err(Unauthenticated)
    ensures r.Ok? <==> caller.Some? && caller.value.role in AllowedRoles(route)
    ensures r.Ok? ==> r.value == caller.value
    ensures r.Err? && caller.Some? ==> r.failure == Denied
  {
    match caller
    case None => Err(Unauthenticated)
    case Some(u) => if u.role in AllowedRoles(route) then Ok(u) else Err(Denied)
  }

  /** Only customers create tickets; agents and admins alone reach a single
      ticket, its update and its responses; listing is open to every role. */
  lemma RouteTable(u: User)
    ensures Gate(Some(u), CreateTicket).Ok? <==> u.role == Customer
    ensures Gate(Some(u), GetTicket).Ok? <==> u.role != Customer
    ensures Gate(Some(u), UpdateTicket).Ok? <==> u.role != Customer
    ensures Gate(Some(u), AddResponse).Ok? <==> u.role != Customer
    ensures Gate(Some(u), ListTickets).Ok?
    ensures Gate(Some(u), DownloadAttachment).Ok?
  {
  }
}

=== FILE: tickets.dfy ===
/** The ticket request handlers: creation, role-based listing, single-ticket
    fetch, update and response creation, each also composed with its route's
    role gate. */
module Tickets {
  import opened Outcomes
  import opened Entities
  import opened Seqs
  import opened Sla
  import opened Access
  import TicketRoutes

  /** The position of the ticket with primary key `id`. */
  function TicketIndex(tickets: seq<Ticket>, id: int): (r: Option<nat>)
    ensures r.None? <==> forall j :: 0 <= j < |tickets| ==> tickets[j].id != id
    ensures r.Some? ==> r.value < |tickets| && tickets[r.value].id == id
  {
    FirstIndex(tickets, (t: Ticket) => t.id == id)
  }

  predicate Exists(tickets: seq<Ticket>, id: int) {
    exists j :: 0 <= j < |tickets| && tickets[j].id == id
  }

  /** The ticket with primary key `id`, if any. */
  function FindTicket(tickets: seq<Ticket>, id: int): (r: Option<Ticket>)
    ensures r.None? <==> !Exists(tickets, id)
    ensures r.Some? ==> r.value in tickets && r.value.id == id
  {
    match TicketIndex(tickets, id)
    case None => None
    case Some(k) => Some(tickets[k])
  }

  // ---------------------------------------------------------------------
  // Creation

  /** The body of a create request. An absent priority is the empty text,
      which names no policy. */
  datatype NewTicket = NewTicket(title: Option<string>, description: Option<string>, priority: string, tagIds: Option<seq<int>>)

  /** Whether the request asks for tags to be attached. */
  predicate AttachesTags(req: NewTicket) {
    req.tagIds.Some? && |req.tagIds.value| > 0
  }

  /** Creates a ticket for `caller` with primary key `id` at `now`. The due
      dates are computed first, so a priority without a policy creates
      nothing. The row is stored before the tags are attached; a tag id that
      does not exist fails the request but leaves the untagged ticket. */
  function CreateTicket(tickets: seq<Ticket>, policies: seq<SlaPolicy>, knownTags: set<int>,
                        caller: User, req: NewTicket, id: int, now: int): (r: Stored<Ticket, Ticket>)
    ensures r.rows == tickets || (|r.rows| == |tickets| + 1 && r.rows[..|tickets|] == tickets)
    ensures |r.rows| > |tickets| <==>
      HasPolicyFor(policies, req.priority) && req.title.Some? && req.description.Some?
    ensures r.outcome == Err(Invalid(PolicyMissing)) <==> !HasPolicyFor(policies, req.priority)
    ensures |r.rows| > |tickets| ==>
      var t := r.rows[|tickets|];
      && t.id == id && t.status == Open && t.customerId == caller.id && t.agentId.None?
      && Some(t.title) == req.title && Some(t.description) == req.description
      && ParsePriority(req.priority) == Some(t.priority)
      && t.responseDueDate.Some? && t.resolutionDueDate.Some?
      && CalculateDueDates(policies, req.priority, now)
         == Ok(DueDates(t.responseDueDate.value, t.resolutionDueDate.value))
      && t.createdAt == now && t.updatedAt == now
      && t.tags == (if AttachesTags(req) && IdSet(req.tagIds.value) <= knownTags then IdSet(req.tagIds.value) else {})
    ensures r.outcome.Ok? <==>
      |r.rows| > |tickets| && (AttachesTags(req) ==> IdSet(req.tagIds.value) <= knownTags)
    ensures r.outcome.Ok? ==> r.outcome.value == r.rows[|tickets|]
  {
    match CalculateDueDates(policies, req.priority, now)
    case Err(f) => Stored(tickets, Err(f))
    case Ok(due) =>
      if req.title.None? || req.description.None? then Stored(tickets, Err(Invalid(ValueInvalid)))
      else
        var t := Ticket(id, req.title.value, req.description.value, DefaultStatus, ParsePriority(req.priority).value,
                        Some(due.responseDue), Some(due.resolutionDue), caller.id, None, {}, now, now);
        if !AttachesTags(req) then Stored(tickets + [t], Ok(t))
        else if IdSet(req.tagIds.value) <= knownTags then
          var tagged := t.(tags := IdSet(req.tagIds.value));
          Stored(tickets + [tagged], Ok(tagged))
        else Stored(tickets + [t], Err(Invalid(ReferenceMissing)))
  }

  /** Creation behind its route gate: only customers get through. */
  function CreateTicketEndpoint(tickets: seq<Ticket>, policies: seq<SlaPolicy>, knownTags: set<int>,
                                caller: Option<User>, req: NewTicket, id: int, now: int): (r: Stored<Ticket, Ticket>)
    ensures caller.None? ==> r == Stored(tickets, Err(Unauthenticated))
    ensures caller.Some? && caller.value.role != Customer ==> r == Stored(tickets, Err(Denied))
    // an admitted customer gets the controller's result, rows and outcome alike
    ensures caller.Some? && caller.value.role in TicketRoutes.AllowedRoles(TicketRoutes.CreateTicket) ==>
      r == CreateTicket(tickets, policies, knownTags, caller.value, req, id, now)
    ensures r.rows != tickets ==> caller.Some? && caller.value.role == Customer
    ensures r.outcome.Ok? <==>
      && caller.Some? && caller.value.role == Customer
      && HasPolicyFor(policies, req.priority) && req.title.Some? && req.description.Some?
      && (AttachesTags(req) ==> IdSet(req.tagIds.value) <= knownTags)
    ensures r.outcome.Ok? ==> r.outcome.value.customerId == caller.value.id && caller.value.role == Customer
  {
    match TicketRoutes.Gate(caller, TicketRoutes.CreateTicket)
    case Err(f) => Stored(tickets, Err(f))
    case Ok(u) => CreateTicket(tickets, policies, knownTags, u, req, id, now)
  }

  // ---------------------------------------------------------------------
  // Listing

  /** The tickets listed for `caller`: a customer's own, the tickets an agent
      reaches through its groups' tags, or every ticket for an admin. */
  function ListTickets(tickets: seq<Ticket>, groups: seq<Group>, caller: User): (r: seq<Ticket>)
    ensures |r| <= |tickets|
    // each row is listed at most once
    ensures multiset(r) <= multiset(tickets)
    ensures caller.role == Admin ==> r == tickets
    ensures caller.role == Customer ==>
      (forall i :: 0 <= i < |r| ==> r[i] in tickets && r[i].customerId == caller.id)
      && (forall i :: 0 <= i < |tickets| && tickets[i].customerId == caller.id ==> tickets[i] in r)
    ensures caller.role == Agent ==>
      (forall i :: 0 <= i < |r| ==>
         r[i] in tickets
         && exists g, tag :: g in groups && caller.id in g.agents && tag in g.tags && tag in r[i].tags)
      && (forall i, g, tag ::
            (0 <= i < |tickets| && g in groups && caller.id in g.agents && tag in g.tags
             && tag in tickets[i].tags) ==> tickets[i] in r)
  {
    match caller.role
    case Customer =>
      var owned := (t: Ticket) => t.customerId == caller.id;
      FilterIsSubMultiset(tickets, owned);
      Filter(tickets, owned)
    case Agent =>
      var agentTags := EffectiveTags(groups, caller.id);
      var reached := (t: Ticket) => HasMatchingTag(t.tags, agentTags);
      FilterIsSubMultiset(tickets, reached);
      Filter(tickets, reached)
    case Admin => tickets
  }

  // ---------------------------------------------------------------------
  // Single-ticket fetch

  /** Fetches one ticket: a customer must own it, an agent must share a tag
      with it through a group, an admin always may. */
  function GetTicket(tickets: seq<Ticket>, groups: seq<Group>, caller: User, id: int): (r: Result<Ticket>)
    ensures r == Err(NotFound) <==> !Exists(tickets, id)
    ensures r.Ok? ==> r.value in tickets && r.value.id == id
    ensures Exists(tickets, id) ==>
      var t := FindTicket(tickets, id).value;
      match caller.role
      case Admin => r == Ok(t)
      case Customer => r == (if t.customerId == caller.id then Ok(t) else Err(Denied))
      case Agent => r == (if t.tags * EffectiveTags(groups, caller.id) != {} then Ok(t) else Err(Denied))
  {
    match FindTicket(tickets, id)
    case None => Err(NotFound)
    case Some(t) =>
      match caller.role
      case Customer => if t.customerId == caller.id then Ok(t) else Err(Denied)
      case Agent =>
        var agentTags := EffectiveTags(groups, caller.id);
        MatchingIsOverlap(t.tags, agentTags);
        if HasMatchingTag(t.tags, agentTags) then Ok(t) else Err(Denied)
      case Admin => Ok(t)
  }

  /** The effective single-ticket access: route gate and controller check
      together. Customers never reach the ticket, owners included. */
  function GetTicketEndpoint(tickets: seq<Ticket>, groups: seq<Group>, caller: Option<User>, id: int): (r: Result<Ticket>)
    ensures r.Ok? <==>
      && caller.Some? && caller.value.role != Customer
      && Exists(tickets, id)
      && (caller.value.role == Agent ==>
            FindTicket(tickets, id).value.tags * EffectiveTags(groups, caller.value.id) != {})
    ensures caller.None? ==> r == Err(Unauthenticated)
    ensures caller.Some? && caller.value.role == Customer ==> r == Err(Denied)
    ensures caller.Some? && caller.value.role in TicketRoutes.AllowedRoles(TicketRoutes.GetTicket) ==>
      r == GetTicket(tickets, groups, caller.value, id)
  {
    match TicketRoutes.Gate(caller, TicketRoutes.GetTicket)
    case Err(f) =>
      assert caller.None? || caller.value.role == Customer;
      Err(f)
    case Ok(u) => GetTicket(tickets, groups, u, id)
  }

  // ---------------------------------------------------------------------
  // Update

  /** The keys an update body may carry: the ticket's columns. `Some(None)`
      is an explicit null for a nullable column. Status and priority arrive
      as text and are checked against their enums when the row is saved. */
  datatype TicketPatch = TicketPatch(
    title: Option<string>,
    description: Option<string>,
    status: Option<string>,
    priority: Option<string>,
    responseDueDate: Option<Option<int>>,
    resolutionDueDate: Option<Option<int>>,
    customerId: Option<int>,
    agentId: Option<Option<int>>)

  /** A non-empty priority that differs from the ticket's own: the only case
      in which the due dates are recomputed. */
  predicate ChangesPriority(t: Ticket, patch: TicketPatch) {
    patch.priority.Some? && patch.priority.value != "" && patch.priority.value != PriorityName(t.priority)
  }

  /** Whether the save's enum checks accept the supplied status and priority. */
  predicate EnumsValid(patch: TicketPatch) {
    && (patch.status.Some? ==> ParseStatus(patch.status.value).Some?)
    && (patch.priority.Some? ==> ParsePriority(patch.priority.value).Some?)
  }

  /** The foreign keys the save writes refer to existing users. Only a
      column whose value changes is written, and a null agent refers to
      no one. */
  predicate UsersKnown(t: Ticket, patch: TicketPatch, knownUsers: set<int>) {
    && (patch.customerId.Some? && patch.customerId.value != t.customerId ==> patch.customerId.value in knownUsers)
    && (patch.agentId.Some? && patch.agentId.value.Some? && patch.agentId.value != t.agentId ==>
          patch.agentId.value.value in knownUsers)
  }

  /** Copies every supplied key onto the ticket, as the save would store it. */
  function Assign(t: Ticket, patch: TicketPatch): (u: Ticket)
    requires EnumsValid(patch)
    ensures u.id == t.id && u.tags == t.tags && u.createdAt == t.createdAt && u.updatedAt == t.updatedAt
    ensures u.title == patch.title.GetOr(t.title) && u.description == patch.description.GetOr(t.description)
    ensures u.customerId == patch.customerId.GetOr(t.customerId) && u.agentId == patch.agentId.GetOr(t.agentId)
    ensures patch.status.Some? ==> StatusName(u.status) == patch.status.value
    ensures patch.status.None? ==> u.status == t.status
    ensures patch.priority.Some? ==> PriorityName(u.priority) == patch.priority.value
    ensures patch.priority.None? ==> u.priority == t.priority
    ensures u.responseDueDate == patch.responseDueDate.GetOr(t.responseDueDate)
    ensures u.resolutionDueDate == patch.resolutionDueDate.GetOr(t.resolutionDueDate)
  {
    t.(title := patch.title.GetOr(t.title),
       description := patch.description.GetOr(t.description),
       status := if patch.status.Some? then ParseStatus(patch.status.value).value else t.status,
       priority := if patch.priority.Some? then ParsePriority(patch.priority.value).value else t.priority,
       responseDueDate := patch.responseDueDate.GetOr(t.responseDueDate),
       resolutionDueDate := patch.resolutionDueDate.GetOr(t.resolutionDueDate),
       customerId := patch.customerId.GetOr(t.customerId),
       agentId := patch.agentId.GetOr(t.agentId))
  }

  /** The body after the priority check: on a priority change, both due
      dates are replaced by freshly computed ones. */
  function PrepareBody(t: Ticket, policies: seq<SlaPolicy>, patch: TicketPatch, now: int): (r: Result<TicketPatch>)
    ensures r.Err? <==> ChangesPriority(t, patch) && !HasPolicyFor(policies, patch.priority.value)
    ensures r.Err? ==> r.failure == Invalid(PolicyMissing)
    ensures r.Ok? ==> r.value.(responseDueDate := patch.responseDueDate, resolutionDueDate := patch.resolutionDueDate) == patch
    ensures r.Ok? && !ChangesPriority(t, patch) ==> r.value == patch
    ensures r.Ok? && ChangesPriority(t, patch) ==>
      && r.value.responseDueDate.Some? && r.value.responseDueDate.value.Some?
      && r.value.resolutionDueDate.Some? && r.value.resolutionDueDate.value.Some?
      && CalculateDueDates(policies, patch.priority.value, now)
         == Ok(DueDates(r.value.responseDueDate.value.value, r.value.resolutionDueDate.value.value))
  {
    if ChangesPriority(t, patch) then
      match CalculateDueDates(policies, patch.priority.value, now)
      case Err(f) => Err(f)
      case Ok(d) => Ok(patch.(responseDueDate := Some(Some(d.responseDue)),
                              resolutionDueDate := Some(Some(d.resolutionDue))))
    else Ok(patch)
  }

  /** Saving stamps the timestamp only when some column changed. */
  function Save(before: Ticket, after: Ticket, now: int): Ticket {
    if after == before then before else after.(updatedAt := now)
  }

  /** Updates the ticket with primary key `id` at `now`. A priority change
      replaces both due dates with ones computed from the new priority and
      `now`, overriding any due dates in the body; otherwise every supplied
      key is copied as given, status regressions included. There is no
      ownership or tag check. The save fails, writing nothing, when a value
      is outside its enum or a changed customer or agent id names no user.
      The timestamp moves only if the row changed. */
  function UpdateTicket(tickets: seq<Ticket>, policies: seq<SlaPolicy>, knownUsers: set<int>, id: int,
                        patch: TicketPatch, now: int): (r: Stored<Ticket, Ticket>)
    ensures |r.rows| == |tickets|
    ensures r.outcome == Err(NotFound) <==> !Exists(tickets, id)
    ensures r.outcome.Err? ==> r.outcome.failure == NotFound || r.outcome.failure.Invalid?
    ensures r.outcome.Err? ==> r.rows == tickets
    ensures Exists(tickets, id) ==>
      var k := TicketIndex(tickets, id).value;
      var t := tickets[k];
      && (forall j :: 0 <= j < |tickets| && j != k ==> r.rows[j] == tickets[j])
      && (r.outcome.Ok? <==>
            && EnumsValid(patch)
            && (ChangesPriority(t, patch) ==> HasPolicyFor(policies, patch.priority.value))
            && UsersKnown(t, patch, knownUsers))
      && (ChangesPriority(t, patch) && !HasPolicyFor(policies, patch.priority.value) ==>
            r.outcome == Err(Invalid(PolicyMissing)))
      && ((&& EnumsValid(patch)
           && (ChangesPriority(t, patch) ==> HasPolicyFor(policies, patch.priority.value))
           && !UsersKnown(t, patch, knownUsers)) ==> r.outcome == Err(Invalid(ReferenceMissing)))
      && (r.outcome.Ok? ==> r.rows[k] == r.outcome.value && r.outcome.value.id == id)
  {
    match TicketIndex(tickets, id)
    case None => Stored(tickets, Err(NotFound))
    case Some(k) =>
      var t := tickets[k];
      match PrepareBody(t, policies, patch, now)
      case Err(f) => Stored(tickets, Err(f))
      case Ok(body) =>
        if !EnumsValid(body) then Stored(tickets, Err(Invalid(ValueInvalid)))
        else if !UsersKnown(t, body, knownUsers) then Stored(tickets, Err(Invalid(ReferenceMissing)))
        else
          var saved := Save(t, Assign(t, body), now);
          Stored(tickets[k := saved], Ok(saved))
  }

  /** What a successful update writes: the ticket keeps its id, tags and
      creation time; every supplied key is copied as given, except that a
      priority change replaces both due dates with ones computed from the
      new priority at `now`; the timestamp moves only if a column changed. */
  lemma UpdateWritesThePatch(tickets: seq<Ticket>, policies: seq<SlaPolicy>, knownUsers: set<int>, id: int,
                             patch: TicketPatch, now: int)
    requires Exists(tickets, id)
    ensures var r := UpdateTicket(tickets, policies, knownUsers, id, patch, now);
            var t := FindTicket(tickets, id).value;
            r.outcome.Ok? ==>
            var u := r.outcome.value;
            && u.id == t.id && u.tags == t.tags && u.createdAt == t.createdAt
            && u.title == patch.title.GetOr(t.title)
            && u.description == patch.description.GetOr(t.description)
            && u.customerId == patch.customerId.GetOr(t.customerId)
            && u.agentId == patch.agentId.GetOr(t.agentId)
            && (patch.status.Some? ==> StatusName(u.status) == patch.status.value)
            && (patch.status.None? ==> u.status == t.status)
            && (patch.priority.Some? ==> PriorityName(u.priority) == patch.priority.value)
            && (patch.priority.None? ==> u.priority == t.priority)
            && (ChangesPriority(t, patch) ==>
                  u.responseDueDate.Some? && u.resolutionDueDate.Some?
                  && CalculateDueDates(policies, patch.priority.value, now)
                     == Ok(DueDates(u.responseDueDate.value, u.resolutionDueDate.value)))
            && (!ChangesPriority(t, patch) ==>
                  u.responseDueDate == patch.responseDueDate.GetOr(t.responseDueDate)
                  && u.resolutionDueDate == patch.resolutionDueDate.GetOr(t.resolutionDueDate))
            && u.updatedAt == (if u.(updatedAt := t.updatedAt) == t then t.updatedAt else now)
  {
    var k := TicketIndex(tickets, id).value;
    var t := tickets[k];
    assert FindTicket(tickets, id) == Some(t);
    var prepared := PrepareBody(t, policies, patch, now);
    if prepared.Ok? && EnumsValid(prepared.value) && UsersKnown(t, prepared.value, knownUsers) {
      var body := prepared.value;
      var saved := Save(t, Assign(t, body), now);
      assert UpdateTicket(tickets, policies, knownUsers, id, patch, now).outcome == Ok(saved);
      assert body.title == patch.title && body.description == patch.description;
      assert body.status == patch.status && body.priority == patch.priority;
      assert body.customerId == patch.customerId && body.agentId == patch.agentId;
    }
  }

  /** Update behind its route gate. The gate is the only check: any agent
      or admin may update any existing ticket. */
  function UpdateTicketEndpoint(tickets: seq<Ticket>, policies: seq<SlaPolicy>, knownUsers: set<int>,
                                caller: Option<User>, id: int, patch: TicketPatch, now: int): (r: Stored<Ticket, Ticket>)
    ensures r.outcome == Err(Denied) <==> caller.Some? && caller.value.role == Customer
    ensures r.rows != tickets ==> caller.Some? && caller.value.role != Customer && Exists(tickets, id)
    ensures r.outcome.Ok? <==>
      && caller.Some? && caller.value.role != Customer
      && Exists(tickets, id)
      && var t := FindTicket(tickets, id).value;
         && EnumsValid(patch)
         && (ChangesPriority(t, patch) ==> HasPolicyFor(policies, patch.priority.value))
         && UsersKnown(t, patch, knownUsers)
    ensures caller.None? ==> r == Stored(tickets, Err(Unauthenticated))
    ensures caller.Some? && caller.value.role in TicketRoutes.AllowedRoles(TicketRoutes.UpdateTicket) ==>
      r == UpdateTicket(tickets, policies, knownUsers, id, patch, now)
  {
    match TicketRoutes.Gate(caller, TicketRoutes.UpdateTicket)
    case Err(f) =>
      assert caller.None? || caller.value.role == Customer;
      Stored(tickets, Err(f))
    case Ok(_) => UpdateTicket(tickets, policies, knownUsers, id, patch, now)
  }

  // ---------------------------------------------------------------------
  // Responses

  datatype Response = Response(content: string, ticketId: int, userId: int)

  /** Adds a response: a customer must own the ticket and an agent must be
      the ticket's assigned agent; tags are not consulted. */
  function AddResponse(tickets: seq<Ticket>, caller: User, id: int, content: string): (r: Result<Response>)
    ensures r == Err(NotFound) <==> !Exists(tickets, id)
    ensures Exists(tickets, id) ==>
      var t := FindTicket(tickets, id).value;
      && (r.Ok? <==> match caller.role
                     case Admin => true
                     case Customer => t.customerId == caller.id
                     case Agent => t.agentId == Some(caller.id))
      && (r.Err? ==> r.failure == Denied)
    ensures r.Ok? ==> r.value == Response(content, id, caller.id)
  {
    match FindTicket(tickets, id)
    case None => Err(NotFound)
    case Some(t) =>
      if caller.role == Customer && t.customerId != caller.id then Err(Denied)
      else if caller.role == Agent && t.agentId != Some(caller.id) then Err(Denied)
      else Ok(Response(content, t.id, caller.id))
  }

  /** Response creation behind its route gate: an admin, or the agent the
      ticket is assigned to. */
  function AddResponseEndpoint(tickets: seq<Ticket>, caller: Option<User>, id: int, content: string): (r: Result<Response>)
    ensures r.Ok? <==>
      && caller.Some? && caller.value.role != Customer
      && Exists(tickets, id)
      && (caller.value.role == Agent ==> FindTicket(tickets, id).value.agentId == Some(caller.value.id))
    ensures caller.None? ==> r == Err(Unauthenticated)
    ensures caller.Some? && caller.value.role == Customer ==> r == Err(Denied)
    ensures caller.Some? && caller.value.role in TicketRoutes.AllowedRoles(TicketRoutes.AddResponse) ==>
      r == AddResponse(tickets, caller.value, id, content)
  {
    match TicketRoutes.Gate(caller, TicketRoutes.AddResponse)
    case Err(f) =>
      assert caller.None? || caller.value.role == Customer;
      Err(f)
    case Ok(u) => AddResponse(tickets, u, id, content)
  }

  // ---------------------------------------------------------------------
  // Properties relating the handlers

  const EmptyPatch: TicketPatch := TicketPatch(None, None, None, None, None, None, None, None)

  /** The update path enforces no order on statuses: a resolved or closed
      ticket can be sent back to open. */
  lemma StatusMayRegress(tickets: seq<Ticket>, policies: seq<SlaPolicy>, knownUsers: set<int>, id: int, now: int)
    requires Exists(tickets, id)
    ensures var r := UpdateTicket(tickets, policies, knownUsers, id, EmptyPatch.(status := Some("open")), now);
            r.outcome.Ok? && r.outcome.value.status == Open
  {
  }

  /** With the seeded table: a critical ticket raised at `t0` is due for
      response at t0 + 1h and resolution at t0 + 8h; moving it to low at
      `t1` recomputes both from `t1`: t1 + 24h and t1 + 72h. */
  lemma PriorityChangeRecomputesFromUpdateTime(caller: User, id: int, title: string, description: string, t0: int, t1: int)
    ensures var created := CreateTicket([], SeedPolicies, {}, caller,
                                        NewTicket(Some(title), Some(description), "critical", None), id, t0);
            && created.outcome.Ok?
            && created.outcome.value.responseDueDate == Some(t0 + 1 * HourMs)
            && created.outcome.value.resolutionDueDate == Some(t0 + 8 * HourMs)
            && var updated := UpdateTicket(created.rows, SeedPolicies, {}, id, EmptyPatch.(priority := Some("low")), t1);
               && updated.outcome.Ok?
               && updated.outcome.value.priority == Low
               && updated.outcome.value.responseDueDate == Some(t1 + 24 * HourMs)
               && updated.outcome.value.resolutionDueDate == Some(t1 + 72 * HourMs)
  {
    LookupIsUnique(SeedPolicies, 3);
    assert CalculateDueDates(SeedPolicies, "critical", t0) == Ok(DueDates(t0 + 1 * HourMs, t0 + 8 * HourMs));
    var created := CreateTicket([], SeedPolicies, {}, caller,
                                NewTicket(Some(title), Some(description), "critical", None), id, t0);
    var row := created.outcome.value;
    assert created.rows == [row];
    SeededMoveToLow(row, t1);
  }

  /** Moving a seeded critical ticket to low at `t1`. */
  lemma SeededMoveToLow(row: Ticket, t1: int)
    requires row.priority == Critical
    ensures var updated := UpdateTicket([row], SeedPolicies, {}, row.id, EmptyPatch.(priority := Some("low")), t1);
            && updated.outcome.Ok?
            && updated.outcome.value.priority == Low
            && updated.outcome.value.responseDueDate == Some(t1 + 24 * HourMs)
            && updated.outcome.value.resolutionDueDate == Some(t1 + 72 * HourMs)
  {
    LookupIsUnique(SeedPolicies, 0);
    assert CalculateDueDates(SeedPolicies, "low", t1) == Ok(DueDates(t1 + 24 * HourMs, t1 + 72 * HourMs));
    assert TicketIndex([row], row.id) == Some(0);
  }

  /** An agent whose groups share no tag with a ticket is refused the ticket
      but may still update it. */
  lemma UpdateSkipsTagCheck(tickets: seq<Ticket>, groups: seq<Group>, policies: seq<SlaPolicy>, knownUsers: set<int>,
                            agent: User, id: int, now: int)
    requires agent.role == Agent
    requires Exists(tickets, id)
    requires FindTicket(tickets, id).value.tags * EffectiveTags(groups, agent.id) == {}
    ensures GetTicketEndpoint(tickets, groups, Some(agent), id) == Err(Denied)
    ensures UpdateTicketEndpoint(tickets, policies, knownUsers, Some(agent), id, EmptyPatch.(status := Some("closed")), now).outcome.Ok?
  {
  }

  /** Responses follow assignment, not tags: the assigned agent may respond
      without sharing a tag, and an agent who shares a tag but is not
      assigned may not. */
  lemma ResponsesFollowAssignment(tickets: seq<Ticket>, groups: seq<Group>, agent: User, id: int, content: string)
    requires agent.role == Agent
    requires Exists(tickets, id)
    ensures var t := FindTicket(tickets, id).value;
            t.agentId == Some(agent.id) && t.tags * EffectiveTags(groups, agent.id) == {} ==>
              GetTicketEndpoint(tickets, groups, Some(agent), id) == Err(Denied)
              && AddResponseEndpoint(tickets, Some(agent), id, content).Ok?
    ensures var t := FindTicket(tickets, id).value;
            t.agentId != Some(agent.id) && t.tags * EffectiveTags(groups, agent.id) != {} ==>
              GetTicketEndpoint(tickets, groups, Some(agent), id).Ok?
              && AddResponseEndpoint(tickets, Some(agent), id, content) == Err(Denied)
  {
  }
}
